=== FILE: README.md ===
# CHIP-8 execution engine in Dafny

This project models the execution engine of a CHIP-8 emulator written in C#: the `CPU`
class in `CPU.cs`. It covers the machine state, `LoadProgram`, the key events `KeyPress`
and `KeyRelease`, and `Step`, one fetch-decode-execute cycle. It also covers the iterations
of the host loop in `Program.cs`: each delivers at most one key event and then steps.

The machine state is an immutable record (`Machine.State`) with these fields:

- 4096 bytes of memory;
- sixteen 8-bit registers V0..VF;
- the 16-bit PC and I;
- the call stack, with its top kept last;
- the delay and sound timers;
- sixteen key flags;
- the wait-for-key latch;
- the 64x32 byte-per-pixel frame.

Each operation is a pure function from a state to a new state. Operations that can throw
in C# return `Result`: `Ok(state)` or `Err(error)`. The errors are:

- an unknown opcode;
- an unsupported 5XYN variant;
- a `Stack.Pop` on an empty stack;
- a memory index past 4095;
- a key index past 15.

Bytes and words are bounded integers (`u4`, `u8`, `u12`, `u16`). The C# narrowing casts
are written out as `Wrap8` and `Wrap16`. `&`, `|` and `^` are defined bit by bit in
`Bits.Bitwise`.

`Step` does its work in two parts. `Opcode.Decode` turns the fetched 16-bit word into an
instruction of the `Instr` datatype, or into the error the C# switch throws. `Cpu.Execute`
then applies that instruction to the state that `Cpu.Advance` has prepared. `Advance`:

- clears the wait latch;
- ticks the timers;
- moves PC on by two.

Every decoding error in the source is raised before the instruction has any effect, so
splitting decode from execute changes nothing. `Opcode.Encode` is the inverse of `Decode`,
and the two are proved to be mutual inverses.

Two inputs of the source are hidden, and here they are explicit parameters of `Step`:

- `tick` means that more than 16 ms have passed on the stopwatch since the first step
  or the last tick (the stopwatch starts at the first `Step`);
- `rnd` is the byte that `Random.Next(0, 256)` would return.

`Cpu.Run` models the host loop in `Program.cs`. Each iteration polls at most one event.
`Input.cs` maps a key-down or key-up event to `KeyPress` or `KeyRelease` on a key index,
and then the loop calls `Step`. A `Cpu.Input` therefore holds:

- the key event, already mapped to its key index, or none;
- `tick` and `rnd` for the step.

`Run` stops at the first step that throws.

The modules are these:

- `Bits`: widths, casts, and bitwise operators.
- `Machine`: state, errors, `Result`.
- `Font`: the 80 glyph bytes.
- `Opcode`: decode and encode.
- `Alu`: family 8.
- `Sprite`: DXYN on a frame.
- `Cpu`: `Step`.
- `Loader`: `LoadProgram` and the key events.
- `StepProperties`: one step.
- `RunProperties`: many steps.
- `Scenarios`: small programs.

Some facts about the code that the model keeps:

- `LoadProgram` replaces memory and sets PC. The registers, I, the stack, the timers, the
  wait latch and the display keep their values.
- A step fails on an unknown opcode, on an empty stack, on an out-of-range memory access
  and on an out-of-range key index.
- 8XY4, 8XY5 and 8XY7 write VF before they compute Vx.
  - With Y = F, the operand is the new flag.
  - With X = F, the result overwrites the flag.
  - With X = Y = F, both happen: 8FF4 leaves VF as twice the carry, and 8FF5 and 8FF7
    leave VF = 0.

  The general lemmas are stated for X and Y different from F. `Alu.AddIntoFlag`,
  `Alu.AddFromFlag`, `Alu.AddOnFlagItself`, the four matching subtraction lemmas and
  `Alu.SubOnFlagItself` state what the code does in the other cases.

## Model

| member | source | states |
|---|---|---|
| Loader.LoadProgram | CPU.cs:19-28 | succeeds exactly when the image is at most 3584 bytes; a longer one throws at address 4096; on success the font is at 0..79, the image at 512.., every other byte is zero, PC is 512 and no other field changes |
| Loader.LoadIdempotent | CPU.cs:19-28 | loading the same image twice gives the same state as loading it once |
| Loader.KeyPress | CPU.cs:58-65 | an index 0..15 marks that key down and leaves every other key and field as it was; other indices change nothing |
| Loader.KeyRelease | CPU.cs:67-74 | an index 0..15 marks that key up and leaves every other key and field as it was; other indices change nothing |
| Loader.ReleaseUndoesPress | CPU.cs:58-74 | releasing a key that was up before being pressed restores the state |
| Loader.OutOfRangeKeysIgnored | CPU.cs:58-74 | a key index outside 0..15 leaves the state unchanged for both events |
| Cpu.Fetch | CPU.cs:77 | the opcode's high byte is the byte at PC and its low byte the byte at PC + 1 |
| Cpu.Advance | CPU.cs:78-91 | no contract of its own; `StepProperties.SequentialAdvancesPc` states its effect on PC, `StepProperties.StepTicksTimers` its effect on the timers and `StepProperties.StepClearsLatch` its clearing of the latch |
| Cpu.WaitForKey | CPU.cs:249-268 | the latch ends clear exactly when some key is down; then Vx is the lowest key that is down and PC stays; otherwise the registers are kept and PC moves back by two modulo 65536; nothing but Vx, PC and the latch changes |
| Machine.FirstOutOfRange | CPU.cs:287-306 | the address at which a block access from `start` first leaves memory: inside the block, at least 4096, and every earlier address of the block is in memory |
| Cpu.Step | CPU.cs:75-93 | fetching at a PC whose two bytes are not both in memory throws on an address of 4096 or more; a step never changes the keyboard |
| Cpu.Execute | CPU.cs:93-317 | no instruction changes the keyboard, and only FX0A changes the wait latch |
| Cpu.FirstKeyDown | CPU.cs:252-261 | finds the lowest key at or above `from` that is down; it answers none exactly when no such key is down |
| Cpu.SpriteRows | CPU.cs:206-208 | the N sprite rows are the N memory bytes from I |
| Cpu.BcdInto | CPU.cs:287-290 | three digits below ten whose decimal value is Vx, at I, I+1 and I+2; no other byte changes |
| Cpu.SaveBlock | CPU.cs:294-297 | bytes I..I+x hold V0..Vx and no other byte changes |
| Cpu.LoadBlock | CPU.cs:302-305 | V0..Vx come from bytes I..I+x and the registers above x are kept |
| Opcode.AluOpOf | CPU.cs:151-183 | family 8 accepts exactly the low nibbles 0..7 and E, and each accepted nibble is the code of its operation |
| Opcode.Decode | CPU.cs:89-317 | no contract of its own; `Opcode.DecodeEncode`, `Opcode.EncodeDecode`, `Opcode.DecodeFailsExactly` and `Opcode.DecodeErrors` state what it accepts and what it returns |
| Opcode.DecodeEncode | CPU.cs:93-317 | decoding the opcode of any instruction gives back that instruction |
| Opcode.EncodeDecode | CPU.cs:89-317 | an opcode that decodes is the encoding of the instruction it decodes to |
| Opcode.DecodeFailsExactly | CPU.cs:93-317 | an opcode is rejected exactly when no instruction has it as its encoding |
| Opcode.DecodeErrors | CPU.cs:104-316 | a rejected opcode fails as an unknown opcode or an unsupported variant, naming the opcode |
| Opcode.ArithUnknownNibble | CPU.cs:181-182 | family 8 with a low nibble outside 0..7 and E is an unknown opcode |
| Opcode.SkipRegsVariant | CPU.cs:128-139 | family 5 with a nonzero low nibble is an unsupported variant |
| Alu.Compute | CPU.cs:147-184 | 8XYN changes only Vx and VF, and 8XY0..8XY3 leave VF alone unless X is F; the result of each operation is stated by `Alu.LogicBitwise` and the carry, borrow and shift lemmas below |
| Alu.AddCarries | CPU.cs:157-160 | with X, Y not F: VF is 1 exactly on carry out of eight bits, and Vx + 256*VF equals the old Vx + Vy |
| Alu.AddIntoFlag | CPU.cs:157-160 | 8FY4 leaves VF = (Vy + carry) mod 256, because the sum lands on the flag just written |
| Alu.AddFromFlag | CPU.cs:157-160 | 8XF4 adds the carry just written to Vx, not the old VF |
| Alu.SubBorrows | CPU.cs:161-165 | with X, Y not F: VF is 1 exactly when Vx >= Vy, and Vx is the difference plus 256 on borrow |
| Alu.SubFromBorrows | CPU.cs:171-175 | with X, Y not F: VF is 1 exactly when Vy >= Vx, and Vx is Vy - Vx plus 256 on borrow |
| Alu.AddOnFlagItself | CPU.cs:157-160 | 8FF4 leaves VF as twice the carry of VF + VF: 2 when the old VF is at least 0x80, else 0 |
| Alu.SubOnFlagItself | CPU.cs:161-175 | 8FF5 and 8FF7 leave VF = 0 whatever it held |
| Alu.SubIntoFlag | CPU.cs:161-165 | 8FY5 leaves VF = (no-borrow - Vy) mod 256, because the difference lands on the flag just written |
| Alu.SubFromFlag | CPU.cs:161-165 | 8XF5 subtracts the no-borrow flag just written from Vx, not the old VF |
| Alu.SubFromIntoFlag | CPU.cs:171-175 | 8FY7 leaves VF = (Vy - no-borrow) mod 256 |
| Alu.SubFromFromFlag | CPU.cs:171-175 | 8XF7 leaves Vx = (no-borrow - Vx) mod 256, reading the flag just written as Vy |
| Alu.ShiftRightBit | CPU.cs:166-170 | with X not F: VF is the old low bit and 2*Vx + VF is the old Vx |
| Alu.ShiftLeftBit | CPU.cs:176-180 | with X not F: VF is 1 exactly when the old top bit was set, and Vx + 256*VF is twice the old Vx |
| Alu.ShiftsIgnoreY | CPU.cs:166-180 | 8XY6 and 8XYE give the same registers whatever Y is |
| Alu.LogicBitwise | CPU.cs:153-156 | 8XY0 copies Vy into Vx; every bit of the new Vx after 8XY1..8XY3 is the OR, AND or XOR of the same bits of Vx and Vy |
| Alu.ShiftRightOnFlag | CPU.cs:166-170 | 8FY6 leaves VF = 0: the single flag bit just written is halved |
| Alu.ShiftLeftOnFlag | CPU.cs:176-180 | 8FYE leaves VF = 2 when the old VF had its top bit set, else 0 |
| Bits.BitwiseBit | CPU.cs:154-156 | bit k of a bitwise combination is the gate applied to bit k of each operand below the width, and 0 above it |
| Bits.LowBit | CPU.cs:168 | `a & 1` is the low bit of a |
| Bits.HighBit | CPU.cs:178 | `(a & 0x80) == 0x80` exactly when a >= 128 |
| Bits.FlipLowBitTwice | CPU.cs:217 | toggling a pixel twice with `^ 1` restores it |
| Sprite.PixelAt | CPU.cs:211 | every sprite pixel is 0 or 1, and it is 1 exactly when bit 7 - col of the sprite byte of its row is set |
| Bits.BitShr | CPU.cs:211 | bit k of a is the low bit of `a >> k` |
| Sprite.DrawPrefix | CPU.cs:209-218 | no contract of its own; `Sprite.DrawPrefixClosedForm` states which cells the first n pixels toggle and the flag they leave |
| Sprite.Draw | CPU.cs:204-219 | no contract of its own; `Sprite.DrawPrefixClosedForm`, `Sprite.DrawTwiceRestores`, `Sprite.DrawKeepsBinary` and `Sprite.CollisionMeansPixelCleared` state its effect |
| Sprite.CellOf | CPU.cs:212 | the wrapped cell index of a pixel always lies inside the frame |
| Sprite.CellInjective | CPU.cs:212 | within a sprite of at most 32 rows, distinct pixels land on distinct cells |
| Sprite.DrawPrefixClosedForm | CPU.cs:204-219 | after the loop, a cell is toggled exactly when a lit pixel lands on it, and VF is 1 exactly when a lit pixel lands on a cell that was 1 |
| Sprite.DrawTwiceRestores | CPU.cs:206-219 | drawing the same sprite twice at the same origin restores the frame |
| Sprite.DrawKeepsBinary | CPU.cs:206-219 | a frame of zeros and ones stays so, and VF ends as 0 or 1 |
| Sprite.CollisionMeansPixelCleared | CPU.cs:213-217 | on a 0/1 frame, VF is 1 exactly when the draw turns some lit pixel off |
| StepProperties.SequentialAdvancesPc | CPU.cs:91 | every instruction other than a jump, call, return, skip or FX0A leaves PC two past the opcode when it completes |
| StepProperties.SkipAdvancesPc | CPU.cs:116-237 | each of the six skips moves PC by four exactly when its condition holds, and by two otherwise; the registers, memory, I and the stack are kept |
| StepProperties.KeySkipOutOfRange | CPU.cs:221-237 | EX9E and EXA1 throw exactly when Vx is not a key index, naming Vx |
| StepProperties.ReturnOnEmptyStack | CPU.cs:100-103 | 00EE on an empty stack throws stack underflow |
| StepProperties.CallPushes | CPU.cs:112-115 | 2NNN pushes the address of the next instruction and sets PC to NNN, for any callee; the registers, memory and I are kept |
| StepProperties.ReturnPops | CPU.cs:100-103 | 00EE on a non-empty stack sets PC to the top entry and removes it; the registers, memory and I are kept |
| StepProperties.CallThenReturn | CPU.cs:100-115 | 2NNN pushes the next address and jumps to NNN; a following 00EE returns there with the stack as before the call |
| StepProperties.ClearScreenBlanks | CPU.cs:96-99 | 00E0 zeroes every pixel and changes nothing else |
| StepProperties.WaitParks | CPU.cs:249-268 | FX0A with no key down keeps PC on itself, sets the latch and keeps registers and memory, while the timers still tick |
| StepProperties.WaitResumes | CPU.cs:249-261 | FX0A stores the lowest key that is down in Vx, clears the latch and moves on by two |
| StepProperties.StepClearsLatch | CPU.cs:78 | every successful step of an instruction other than FX0A ends with the key-wait latch clear, whatever it was before |
| StepProperties.StepFrame | CPU.cs:93-317 | a step keeps the registers unless its instruction is one of 6XNN, 7XNN, 8XYN, CXNN, DXYN, FX07, FX0A, FX65; keeps I unless it is ANNN, FX1E, FX29, FX55, FX65; keeps memory unless it is FX33 or FX55; keeps the stack unless it is 2NNN or 00EE |
| StepProperties.ExecuteFrame | CPU.cs:93-317 | the same frame for the instruction alone, on the state before dispatch |
| StepProperties.StepTicksTimers | CPU.cs:80-86 | every instruction but FX15/FX18 leaves each timer one lower after a tick if it was nonzero, and unchanged otherwise |
| StepProperties.SetTimerLoads | CPU.cs:271-278 | FX15 and FX18 load the timer from Vx, replacing the tick; PC moves on by two and the registers, memory, I and the stack are kept |
| StepProperties.ReadDelayAfterTick | CPU.cs:246-248 | FX07 reads the delay timer, as this step's tick left it, into Vx; the other registers, memory, I and the stack are kept |
| StepProperties.StoreBcdDigits | CPU.cs:287-292 | FX33 succeeds exactly when I+2 is in memory, writing the three decimal digits of Vx and nothing else; otherwise it throws at the first address past memory |
| StepProperties.StoreRegsBlock | CPU.cs:293-300 | FX55 succeeds exactly when I+x is in memory, storing V0..Vx at I and adding x+1 to I; otherwise it throws at the first address past memory |
| StepProperties.LoadRegsBlock | CPU.cs:301-308 | FX65 succeeds exactly when I+x is in memory, loading V0..Vx from I and adding x+1 to I; otherwise it throws at the first address past memory |
| StepProperties.SaveThenLoadRestores | CPU.cs:293-308 | loading a block just stored at the same address gives back the stored registers |
| StepProperties.SetImmLoads | CPU.cs:141-143 | 6XNN puts NN in Vx and changes no other register |
| StepProperties.ArithSteps | CPU.cs:147-184 | for every tick and random byte, 8XYN succeeds and leaves exactly the registers `Alu.Compute` gives on the advanced state, so every `Alu` lemma holds of the step |
| StepProperties.SetIndexSteps | CPU.cs:191-193 | for every tick and random byte, ANNN succeeds, sets I to NNN and changes nothing else beyond the advance |
| StepProperties.AddImmWraps | CPU.cs:144-146 | 7XNN adds NN to Vx modulo 256 and changes no other register, VF included |
| StepProperties.AddIndexWraps | CPU.cs:279-282 | FX1E adds Vx to I modulo 65536 and sets no flag |
| StepProperties.RandomMasked | CPU.cs:197-199 | each bit of the new Vx is set exactly when it is set in both the random byte and NN; NN = 0 gives 0; the other registers, memory, I and the stack are kept |
| StepProperties.DrawSpriteEffect | CPU.cs:200-219 | the draw toggles exactly the cells lit pixels land on, at origin (Vx mod 64, Vy mod 32) read before VF is cleared; VF is the collision flag and no other field changes |
| StepProperties.DrawStep | CPU.cs:200-220 | DXYN succeeds exactly when N is 0 or the N rows from I lie in memory, and otherwise throws at the first row address past memory; on success it draws as above and moves on by two |
| StepProperties.DrawTwiceAtStep | CPU.cs:200-220 | executing the same DXYN twice in a row, with X and Y not F, restores the display |
| StepProperties.StepKeepsFrameBinary | CPU.cs:95-220 | a step keeps a frame of zeros and ones so |
| StepProperties.JumpTargets | CPU.cs:109-196 | 1NNN sets PC to NNN; BNNN sets PC to NNN + V0 with no wrap to twelve bits, so a target at or past address 4095 makes the next fetch throw; the registers, memory, I and the stack are kept |
| StepProperties.FontGlyphAddress | CPU.cs:283-286 | FX29 sets I to 5*Vx without masking Vx; for a hex digit, with the font in place, I points at that digit's glyph |
| StepProperties.UnknownOpcodeHalts | CPU.cs:309-316 | an opcode that does not decode ends the step with the decoder's error, which is an unknown opcode or an unsupported variant |
| Cpu.ApplyKey | Input.cs:36-53 | a key event changes only the keyboard: a press of a key index marks it down, a release marks it up, and every other key keeps its state |
| Cpu.Run | Program.cs:42-52 | no contract of its own; `RunProperties.RunAppend`, `RunProperties.ParkedStaysParked` and `RunProperties.PressWakesWaiter` state how iterations compose and how FX0A waits across them |
| RunProperties.RunAppend | Program.cs:42-52 | running two input sequences back to back is running the first and, unless it threw, the second from where the first stopped |
| RunProperties.IgnoredEvent | CPU.cs:58-74 | with every key up, a release or a press of an index outside 0..15 changes nothing |
| RunProperties.ParkedStaysParked | CPU.cs:249-268 | with no key down and no key pressed, any number of iterations on FX0A keeps PC, the registers and memory; the timers count down once per tick and the latch stays set |
| RunProperties.PressWakesWaiter | CPU.cs:249-261 | a key pressed while FX0A waits with every key up is stored in Vx in the same iteration, and PC moves past the FX0A |
| Scenarios.AddProgram | CPU.cs:141-160 | after the image 60 0A 61 0B 80 14 is loaded, three steps leave V0 = 21, VF = 0 and PC = 518 |
| Scenarios.BcdProgram | CPU.cs:287-292 | after the image 60 EA A3 00 F0 33 is loaded, three steps leave 2, 3, 4 at 0x300..0x302 |
| Scenarios.ReturnProgram | CPU.cs:100-103 | after the image 00 EE is loaded onto an empty stack, the first step throws stack underflow |

## Left out

- `Display.cs` and `Sound.cs` are not part of this model. They are the window and the
  audio; the model's state exposes the frame and timers they read.
- From `Input.cs` and `Program.cs` only the order of events within an iteration is
  modelled: one key event, then `Step`. The SDL key map, the quit event and the drawing
  call are left out; a key event is given by its CHIP-8 key index.
- The field initialisers of a new `CPU` have no separate definition. The scenario lemmas
  hold from any state, a freshly constructed one included.
- The stopwatch is replaced by the `tick` input of `Step`. The 16 ms comparison and the
  restart are not modelled.
- The random generator is replaced by the `rnd` input of `Step`.
- Console logging in `KeyPress`, `KeyRelease` and FX0A is left out, because it has no
  effect on the state.
- Exception messages are left out. Errors carry the opcode, the address or the key index
  instead.
- Effects made before an exception are left out, and the whole step or load becomes `Err`.
  Examples: VF cleared and earlier rows drawn before DXYN reads past memory; bytes written
  by a failing FX33 or FX55; program bytes copied before a too-long image overflows. An
  exception ends the run, so that state is never used again.
- The call stack is unbounded, as `Stack<ushort>` is. There is no overflow error.
- Alu.AddCarries: stated for X and Y different from F. For X = F the flag is overwritten
  by the sum, and for Y = F the operand is the flag just written. `Alu.AddIntoFlag`,
  `Alu.AddFromFlag` and `Alu.AddOnFlagItself` cover those cases.
- Alu.SubBorrows: stated for X and Y different from F, for the same reason as 8XY4.
  `Alu.SubIntoFlag`, `Alu.SubFromFlag` and `Alu.SubOnFlagItself` cover those cases.
- Alu.SubFromBorrows: stated for X and Y different from F, for the same reason as 8XY4.
  `Alu.SubFromIntoFlag`, `Alu.SubFromFromFlag` and `Alu.SubOnFlagItself` cover those cases.
- Alu.ShiftRightBit: stated for X different from F; `Alu.ShiftRightOnFlag` covers X = F.
- Alu.ShiftLeftBit: stated for X different from F; `Alu.ShiftLeftOnFlag` covers X = F.
- StepProperties.DrawTwiceAtStep: stated for X and Y different from F. The first draw
  overwrites VF, so a second draw with X or Y = F may use a different origin.
- StepProperties.SkipAdvancesPc: stated for keyed skips whose Vx is a key index;
  `StepProperties.KeySkipOutOfRange` covers the other case.
- StepProperties.CallThenReturn: stated for a callee whose first instruction is 00EE.
- RunProperties.ParkedStaysParked: stated for runs in which no key index is pressed. A
  press ends the wait, as `RunProperties.PressWakesWaiter` states.

=== FILE: alu.dfy ===
/** The register-register operations of family 8 (8XY0 .. 8XYE).

    Each flag-setting operation writes VF first and only then computes Vx from the
    register file that already holds the new flag, as the source does. When x or y is
    F the operand read is therefore the flag, not the old VF. */
module Alu {
  import opened Bits
  import opened Machine
  import opened Opcode

  function CarryOf(a: u8, b: u8): u8 {
    if a as int + b as int > 0xFF then 1 else 0
  }

  function NoBorrowOf(a: u8, b: u8): u8 {
    if a >= b then 1 else 0
  }

  /** The operations that leave VF alone: 8XY0 .. 8XY3. */
  predicate IsLogic(op: AluOp) {
    op.Assign? || op.Or? || op.And? || op.Xor?
  }

  /** The new Vx of a logic operation on Vx = a and Vy = b. */
  function Logic(op: AluOp, a: u8, b: u8): u8
    requires IsLogic(op)
  {
    match op
    case Assign => b
    case Or => Or8(a, b)
    case And => And8(a, b)
    case Xor => Xor8(a, b)
  }

  /** The VF a flag-setting operation writes, from Vx = a and Vy = b before the write. */
  function FlagOf(op: AluOp, a: u8, b: u8): u8
    requires !IsLogic(op)
  {
    match op
    case Add => CarryOf(a, b)
    case Sub => NoBorrowOf(a, b)
    case ShiftRight => And8(a, 0x01)
    case SubFrom => NoBorrowOf(b, a)
    case ShiftLeft => if And8(a, 0x80) == 0x80 then 1 else 0
  }

  /** The new Vx of a flag-setting operation, from Vx = a and Vy = b read after VF is written. */
  function ResultOf(op: AluOp, a: u8, b: u8): u8
    requires !IsLogic(op)
  {
    match op
    case Add => Wrap8(a as int + b as int)
    case Sub => Wrap8(a as int - b as int)
    case ShiftRight => Shr(a, 1)
    case SubFrom => Wrap8(b as int - a as int)
    case ShiftLeft => Wrap8(Shl(a, 1))
  }

  /** The register file after `8XYN` with operation op: a flag-setting operation writes VF
      first, then computes Vx from the register file that already holds the new flag. */
  function Compute(op: AluOp, v: Registers, x: u4, y: u4): (r: Registers)
    ensures forall j :: 0 <= j < RegCount && j != x && j != FlagReg ==> r[j] == v[j]
    ensures IsLogic(op) && x != FlagReg ==> r[FlagReg] == v[FlagReg]
  {
    if IsLogic(op) then v[x := Logic(op, v[x], v[y])]
    else FlagThenResult(op, v[FlagReg := FlagOf(op, v[x], v[y])], x, y)
  }

  function FlagThenResult(op: AluOp, w: Registers, x: u4, y: u4): Registers
    requires !IsLogic(op)
  {
    w[x := ResultOf(op, w[x], w[y])]
  }

  /** 8XY4 away from VF: VF is 1 exactly on carry out of eight bits, Vx the wrapped sum. */
  lemma AddCarries(v: Registers, x: u4, y: u4)
    requires x != FlagReg && y != FlagReg
    ensures var r := Compute(Add, v, x, y);
      && (r[FlagReg] == 1 <==> v[x] as int + v[y] as int > 255)
      && (r[FlagReg] == 0 <==> v[x] as int + v[y] as int <= 255)
      && r[x] as int + 256 * r[FlagReg] as int == v[x] as int + v[y] as int
  {
  }

  /** 8FY4: the sum is added to the carry just written, so VF ends as carry + Vy. */
  lemma AddIntoFlag(v: Registers, y: u4)
    requires y != FlagReg
    ensures Compute(Add, v, FlagReg, y)[FlagReg] == (v[y] as int + CarryOf(v[FlagReg], v[y]) as int) % 256
  {
  }

  /** 8XF4 with x != F: the addend read from VF is the carry, not the old VF. */
  lemma AddFromFlag(v: Registers, x: u4)
    requires x != FlagReg
    ensures Compute(Add, v, x, FlagReg)[x] == (v[x] as int + CarryOf(v[x], v[FlagReg]) as int) % 256
  {
  }

  /** 8FF4: both operands are the new carry, so VF ends as twice the carry of VF + VF: 2 when
      the old VF was at least 0x80, otherwise 0. */
  lemma AddOnFlagItself(v: Registers)
    ensures Compute(Add, v, FlagReg, FlagReg)[FlagReg] == 2 * CarryOf(v[FlagReg], v[FlagReg])
    ensures Compute(Add, v, FlagReg, FlagReg)[FlagReg] == (if v[FlagReg] >= 0x80 then 2 else 0)
  {
  }

  /** 8XY5 away from VF: VF is 1 exactly when no borrow occurs, Vx the wrapped difference. */
  lemma SubBorrows(v: Registers, x: u4, y: u4)
    requires x != FlagReg && y != FlagReg
    ensures var r := Compute(Sub, v, x, y);
      && (r[FlagReg] == 1 <==> v[x] >= v[y])
      && (r[FlagReg] == 0 <==> v[x] < v[y])
      && r[x] as int == v[x] as int - v[y] as int + 256 * (1 - r[FlagReg] as int)
  {
  }

  /** 8XY7 is 8XY5 with the operands swapped: Vx := Vy - Vx, VF = 1 iff Vy >= Vx. */
  lemma SubFromBorrows(v: Registers, x: u4, y: u4)
    requires x != FlagReg && y != FlagReg
    ensures var r := Compute(SubFrom, v, x, y);
      && (r[FlagReg] == 1 <==> v[y] >= v[x])
      && (r[FlagReg] == 0 <==> v[y] < v[x])
      && r[x] as int == v[y] as int - v[x] as int + 256 * (1 - r[FlagReg] as int)
  {
  }

  /** 8FY5: the difference lands on the flag just written, so VF ends as no-borrow - Vy. */
  lemma SubIntoFlag(v: Registers, y: u4)
    requires y != FlagReg
    ensures Compute(Sub, v, FlagReg, y)[FlagReg] == (NoBorrowOf(v[FlagReg], v[y]) as int - v[y] as int) % 256
  {
  }

  /** 8XF5 with x != F: the subtrahend read from VF is the no-borrow flag, not the old VF. */
  lemma SubFromFlag(v: Registers, x: u4)
    requires x != FlagReg
    ensures Compute(Sub, v, x, FlagReg)[x] == (v[x] as int - NoBorrowOf(v[x], v[FlagReg]) as int) % 256
  {
  }

  /** 8FY7: VF ends as Vy minus the no-borrow flag just written. */
  lemma SubFromIntoFlag(v: Registers, y: u4)
    requires y != FlagReg
    ensures Compute(SubFrom, v, FlagReg, y)[FlagReg] == (v[y] as int - NoBorrowOf(v[y], v[FlagReg]) as int) % 256
  {
  }

  /** 8XF7 with x != F: the minuend read from VF is the no-borrow flag, not the old VF. */
  lemma SubFromFromFlag(v: Registers, x: u4)
    requires x != FlagReg
    ensures Compute(SubFrom, v, x, FlagReg)[x] == (NoBorrowOf(v[FlagReg], v[x]) as int - v[x] as int) % 256
  {
  }

  /** 8FF5 and 8FF7: a register never borrows from itself, so the flag is 1 and VF ends as
      1 - 1 = 0 whatever it held. */
  lemma SubOnFlagItself(v: Registers)
    ensures Compute(Sub, v, FlagReg, FlagReg)[FlagReg] == 0
    ensures Compute(SubFrom, v, FlagReg, FlagReg)[FlagReg] == 0
  {
  }

  /** 8XY6: VF receives the bit shifted out at the bottom and Vx halves. */
  lemma ShiftRightBit(v: Registers, x: u4, y: u4)
    requires x != FlagReg
    ensures var r := Compute(ShiftRight, v, x, y);
      && r[FlagReg] == v[x] % 2
      && 2 * r[x] as int + r[FlagReg] as int == v[x] as int
  {
    LowBit(v[x]);
    assert Shr(v[x], 1) == v[x] as int / 2;
  }

  /** 8XYE: VF receives the bit shifted out at the top and Vx doubles modulo 256. */
  lemma ShiftLeftBit(v: Registers, x: u4, y: u4)
    requires x != FlagReg
    ensures var r := Compute(ShiftLeft, v, x, y);
      && (r[FlagReg] == 1 <==> v[x] >= 128)
      && (r[FlagReg] == 0 <==> v[x] < 128)
      && r[x] as int + 256 * r[FlagReg] as int == 2 * v[x] as int
  {
    HighBit(v[x]);
    var w := v[FlagReg := FlagOf(ShiftLeft, v[x], v[y])];
    assert w[x] == v[x];
    assert Shl(v[x], 1) == 2 * v[x] as int;
  }

  /** The shifts ignore Vy entirely. */
  lemma ShiftsIgnoreY(v: Registers, x: u4, y: u4, y': u4)
    ensures Compute(ShiftRight, v, x, y) == Compute(ShiftRight, v, x, y')
    ensures Compute(ShiftLeft, v, x, y) == Compute(ShiftLeft, v, x, y')
  {
  }

  /** 8XY0 copies Vy into Vx; 8XY1, 8XY2 and 8XY3 combine Vx and Vy bit by bit. */
  lemma LogicBitwise(v: Registers, x: u4, y: u4, k: nat)
    requires k < 8
    ensures Compute(Assign, v, x, y)[x] == v[y]
    ensures Bit(Compute(Or, v, x, y)[x], k) == (Bit(v[x], k) || Bit(v[y], k))
    ensures Bit(Compute(And, v, x, y)[x], k) == (Bit(v[x], k) && Bit(v[y], k))
    ensures Bit(Compute(Xor, v, x, y)[x], k) == (Bit(v[x], k) != Bit(v[y], k))
  {
    BitwiseBit(OrGate, v[x], v[y], 8, k);
    BitwiseBit(AndGate, v[x], v[y], 8, k);
    BitwiseBit(XorGate, v[x], v[y], 8, k);
  }

  /** On VF itself, 8FY6 leaves 0: the flag just written is a single bit, halved. */
  lemma ShiftRightOnFlag(v: Registers, y: u4)
    ensures Compute(ShiftRight, v, FlagReg, y)[FlagReg] == 0
  {
    LowBit(v[FlagReg]);
    assert Shr(And8(v[FlagReg], 0x01), 1) == And8(v[FlagReg], 0x01) / 2;
  }

  /** On VF itself, 8FYE leaves twice the flag just written: 2 when VF had its top bit set. */
  lemma ShiftLeftOnFlag(v: Registers, y: u4)
    ensures Compute(ShiftLeft, v, FlagReg, y)[FlagReg] == (if v[FlagReg] >= 128 then 2 else 0)
  {
    HighBit(v[FlagReg]);
    var flag: u8 := if v[FlagReg] >= 128 then 1 else 0;
    assert Shl(flag, 1) == 2 * flag;
  }
}

=== FILE: bits.dfy ===
/** Fixed-width unsigned integers of the CHIP-8 machine and the C# operators applied to them.

    Bytes and words are bounded mathematical integers rather than bit-vectors; the bitwise
    operators `&`, `|` and `^` are defined bit by bit (least significant bit first), and a
    shift of a non-negative value is a division or multiplication by a power of two. */
module Bits {

  type u4 = x: int | 0 <= x < 0x10
  type u8 = x: int | 0 <= x < 0x100
  type u12 = x: int | 0 <= x < 0x1000
  type u16 = x: int | 0 <= x < 0x1_0000

  /** The C# cast `(byte)n`: the low eight bits of n in two's complement. */
  function Wrap8(n: int): u8 {
    n % 0x100
  }

  /** The C# cast `(ushort)n`: the low sixteen bits of n in two's complement. */
  function Wrap16(n: int): u16 {
    n % 0x1_0000
  }

  function Pow2(k: nat): (r: nat)
    ensures r >= 1
  {
    if k == 0 then 1 else 2 * Pow2(k - 1)
  }

  /** `a >> k` for a non-negative `a`: k halvings, each dropping the lowest bit. */
  function Shr(a: nat, k: nat): (r: nat)
    ensures r <= a
  {
    if k == 0 then a else Shr(a / 2, k - 1)
  }

  /** `a << k` before any narrowing cast: k doublings. */
  function Shl(a: nat, k: nat): nat {
    if k == 0 then a else 2 * Shl(a, k - 1)
  }

  /** Bit k of a (bit 0 is the least significant). */
  predicate Bit(a: nat, k: nat) {
    if k == 0 then a % 2 == 1 else Bit(a / 2, k - 1)
  }

  datatype Gate = AndGate | OrGate | XorGate

  predicate Apply(g: Gate, p: bool, q: bool) {
    match g
    case AndGate => p && q
    case OrGate => p || q
    case XorGate => p != q
  }

  /** The low `width` bits of the bitwise combination of a and b under gate g. */
  function Bitwise(g: Gate, a: nat, b: nat, width: nat): (r: nat)
    ensures r < Pow2(width)
    decreases width
  {
    if width == 0 then 0
    else 2 * Bitwise(g, a / 2, b / 2, width - 1) + (if Apply(g, a % 2 == 1, b % 2 == 1) then 1 else 0)
  }

  function And8(a: u8, b: u8): u8 {
    Pow2Byte();
    Bitwise(AndGate, a, b, 8)
  }

  function Or8(a: u8, b: u8): u8 {
    Pow2Byte();
    Bitwise(OrGate, a, b, 8)
  }

  function Xor8(a: u8, b: u8): u8 {
    Pow2Byte();
    Bitwise(XorGate, a, b, 8)
  }

  /** The powers of two at the top of a byte. */
  lemma Pow2Byte()
    ensures Pow2(7) == 0x80 && Pow2(8) == 0x100
  {
  }

  /** Bit k of a is the low bit of `a >> k`. */
  lemma {:induction false} BitShr(a: nat, k: nat)
    ensures Bit(a, k) <==> Shr(a, k) % 2 == 1
  {
    if k > 0 {
      BitShr(a / 2, k - 1);
    }
  }

  /** Bitwise agrees with its gate on every bit below the width, and is zero above it. */
  lemma {:induction false} BitwiseBit(g: Gate, a: nat, b: nat, width: nat, k: nat)
    ensures Bit(Bitwise(g, a, b, width), k) == (k < width && Apply(g, Bit(a, k), Bit(b, k)))
    decreases width
  {
    var r := Bitwise(g, a, b, width);
    if width == 0 {
      BitOfZero(k);
    } else if k > 0 {
      var rest := Bitwise(g, a / 2, b / 2, width - 1);
      assert r / 2 == rest;
      BitwiseBit(g, a / 2, b / 2, width - 1, k - 1);
    }
  }

  lemma {:induction false} BitOfZero(k: nat)
    ensures !Bit(0, k)
  {
    if k > 0 {
      BitOfZero(k - 1);
    }
  }

  /** Combining with zero: `a & 0 == 0`, and `a ^ 0 == a | 0 == a` within the width. */
  lemma {:induction false} BitwiseZero(a: nat, width: nat)
    ensures Bitwise(AndGate, a, 0, width) == 0
    ensures a < Pow2(width) ==> Bitwise(XorGate, a, 0, width) == a
    ensures a < Pow2(width) ==> Bitwise(OrGate, a, 0, width) == a
    decreases width
  {
    if width > 0 {
      BitwiseZero(a / 2, width - 1);
    }
  }

  /** Masking with the single bit 2^n keeps exactly that bit. */
  lemma {:induction false} AndPowerOfTwo(a: nat, n: nat)
    requires a < Pow2(n + 1)
    ensures Bitwise(AndGate, a, Pow2(n), n + 1) == (if a >= Pow2(n) then Pow2(n) else 0)
    decreases n
  {
    if n == 0 {
      BitwiseZero(a / 2, 0);
    } else {
      assert Pow2(n) == 2 * Pow2(n - 1);
      assert Pow2(n + 1) == 2 * Pow2(n);
      AndPowerOfTwo(a / 2, n - 1);
    }
  }

  /** `a & 1` is the lowest bit of a. */
  lemma LowBit(a: u8)
    ensures And8(a, 1) == a % 2
  {
    Pow2Byte();
    BitwiseZero(a / 2, 7);
  }

  /** `(a & 0x80) == 0x80` exactly when the top bit of the byte is set. */
  lemma HighBit(a: u8)
    ensures And8(a, 0x80) == 0x80 <==> a >= 0x80
  {
    Pow2Byte();
    AndPowerOfTwo(a, 7);
  }

  /** `a & 0 == 0`, `a ^ 0 == a`, `a | 0 == a`. */
  lemma ZeroMask(a: u8)
    ensures And8(a, 0) == 0 && Xor8(a, 0) == a && Or8(a, 0) == a
  {
    Pow2Byte();
    BitwiseZero(a, 8);
  }

  /** `a ^ 1` flips the lowest bit and keeps the others. */
  lemma FlipLowBit(a: u8)
    ensures Xor8(a, 1) == if a % 2 == 0 then a + 1 else a - 1
  {
    Pow2Byte();
    BitwiseZero(a / 2, 7);
  }

  /** Toggling the lowest bit twice restores the byte. */
  lemma FlipLowBitTwice(a: u8)
    ensures Xor8(Xor8(a, 1), 1) == a
  {
    var b := Xor8(a, 1);
    FlipLowBit(a);
    FlipBack(a, b);
  }

  lemma FlipBack(a: u8, b: u8)
    requires b == if a % 2 == 0 then a + 1 else a - 1
    ensures Xor8(b, 1) == a
  {
    FlipLowBit(b);
    if a % 2 == 0 {
      assert b == a + 1 && b % 2 == 1;
    } else {
      assert b == a - 1 && b % 2 == 0;
    }
  }
}

=== FILE: cpu.dfy ===
/** `Step`: one fetch-decode-execute cycle of the CPU.

    The two hidden inputs of the source are parameters: `tick` stands for "more than 16 ms
    have passed since the first step or the last tick", and `rnd` for the byte drawn from the random
    generator (only CXNN uses it). */
module Cpu {
  import opened Bits
  import opened Machine
  import opened Opcode
  import Alu
  import Sprite
  import Loader

  /** The big-endian opcode at PC. */
  function Fetch(m: State): (op: u16)
    requires m.pc + 1 < MemSize
    ensures op / 0x100 == m.ram[m.pc] && op % 0x100 == m.ram[m.pc + 1]
  {
    var op := m.ram[m.pc] as int * 0x100 + m.ram[m.pc + 1] as int;
    QuotientOf(op, 0x100, m.ram[m.pc] as int, m.ram[m.pc + 1] as int);
    op
  }

  /** One 60 Hz timer tick: a nonzero timer counts down, zero stays zero. */
  function TickTimer(t: u8, tick: bool): u8 {
    if tick && t > 0 then t - 1 else t
  }

  /** Everything `Step` does before dispatching: clear the wait latch, tick the timers and
      move PC past the fetched opcode. */
  function Advance(m: State, tick: bool): State {
    m.(waitingForKey := false,
       delayTimer := TickTimer(m.delayTimer, tick),
       soundTimer := TickTimer(m.soundTimer, tick),
       pc := Wrap16(m.pc + 2))
  }

  /** Skip the next instruction when cond holds. */
  function SkipIf(m: State, cond: bool): State {
    if cond then m.(pc := Wrap16(m.pc + 2)) else m
  }

  /** The lowest key index at or above `from` whose key is down, scanning upward. */
  function FirstKeyDown(keys: Keyboard, from: nat): (r: Option<nat>)
    requires from <= KeyCount
    ensures r.Some? ==> from <= r.value < KeyCount && keys[r.value]
    ensures r.Some? ==> forall j :: from <= j < r.value ==> !keys[j]
    ensures r.None? <==> forall j :: from <= j < KeyCount ==> !keys[j]
    decreases KeyCount - from
  {
    if from == KeyCount then None
    else if keys[from] then Some(from)
    else FirstKeyDown(keys, from + 1)
  }

  /** The sprite rows DXYN reads: n bytes of memory from I. */
  function SpriteRows(m: State, n: u4): (rows: seq<u8>)
    requires n == 0 || m.index + n <= MemSize
    ensures |rows| == n
    ensures forall r :: 0 <= r < n ==> rows[r] == m.ram[m.index + r]
  {
    if n == 0 then [] else m.ram[m.index .. m.index + n]
  }

  /** DXYN once the sprite rows are known to lie in memory: VF ends as the collision flag. */
  function DrawSprite(m: State, x: u4, y: u4, n: u4): State
    requires n == 0 || m.index + n <= MemSize
  {
    DrawResult(m, Sprite.Draw(m.display, SpriteRows(m, n), m.regs[x] % ScreenWidth, m.regs[y] % ScreenHeight))
  }

  function DrawResult(m: State, drawn: Sprite.Drawn): State {
    m.(display := drawn.frame, regs := m.regs[FlagReg := drawn.flag])
  }

  /** FX0A: capture the lowest key that is down, or park by rewinding PC to this opcode. */
  function WaitForKey(m: State, x: u4): (r: State)
    ensures !r.waitingForKey <==> exists k :: 0 <= k < KeyCount && m.keyboard[k]
    ensures !r.waitingForKey ==>
      && r.regs[x] < KeyCount && m.keyboard[r.regs[x]]
      && (forall j :: 0 <= j < r.regs[x] ==> !m.keyboard[j])
      && r.pc == m.pc
    ensures r.waitingForKey ==> r.regs == m.regs && r.pc == Wrap16(m.pc - 2)
    ensures forall i :: 0 <= i < RegCount && i != x ==> r.regs[i] == m.regs[i]
    ensures r.(regs := m.regs, pc := m.pc, waitingForKey := m.waitingForKey) == m
  {
    if FirstKeyDown(m.keyboard, 0).Some? then
      m.(regs := m.regs[x := FirstKeyDown(m.keyboard, 0).value], waitingForKey := false)
    else
      m.(waitingForKey := true, pc := Wrap16(m.pc - 2))
  }

  /** FX33: the hundreds, tens and ones digits of v at addresses a, a + 1 and a + 2. */
  function BcdInto(ram: Ram, a: nat, v: u8): (r: Ram)
    requires a + 3 <= MemSize
    ensures r[a] < 10 && r[a + 1] < 10 && r[a + 2] < 10
    ensures 100 * r[a] as int + 10 * r[a + 1] as int + r[a + 2] as int == v as int
    ensures forall j :: 0 <= j < MemSize && !(a <= j < a + 3) ==> r[j] == ram[j]
  {
    ram[a := v / 100][a + 1 := (v / 10) % 10][a + 2 := v % 10]
  }

  /** FX55: registers V0..Vx copied to memory from address a. */
  function SaveBlock(ram: Ram, a: nat, regs: Registers, x: u4): (r: Ram)
    requires a + x + 1 <= MemSize
    ensures forall i :: 0 <= i <= x ==> r[a + i] == regs[i]
    ensures forall j :: 0 <= j < MemSize && !(a <= j <= a + x) ==> r[j] == ram[j]
  {
    ram[..a] + regs[..x + 1] + ram[a + x + 1..]
  }

  /** FX65: registers V0..Vx loaded from memory at address a; the rest keep their values. */
  function LoadBlock(ram: Ram, a: nat, regs: Registers, x: u4): (r: Registers)
    requires a + x + 1 <= MemSize
    ensures forall i :: 0 <= i <= x ==> r[i] == ram[a + i]
    ensures forall i :: x < i < RegCount ==> r[i] == regs[i]
  {
    ram[a .. a + x + 1] + regs[x + 1..]
  }

  /** Executes a decoded instruction on a state that `Advance` has already prepared. */
  function Execute(m: State, ins: Instr, rnd: u8): (r: Result<State>)
    ensures r.Ok? ==> r.value.keyboard == m.keyboard
    ensures r.Ok? && !ins.WaitKey? ==> r.value.waitingForKey == m.waitingForKey
  {
    match ins
    case ClearScreen =>
      Ok(m.(display := BlankFrame()))
    case Return =>
      if |m.stack| == 0 then Err(StackUnderflow)
      else Ok(m.(pc := m.stack[|m.stack| - 1], stack := m.stack[..|m.stack| - 1]))
    case Jump(nnn) =>
      Ok(m.(pc := nnn))
    case Call(nnn) =>
      Ok(m.(stack := m.stack + [m.pc], pc := nnn))
    case SkipIfEqual(x, nn) =>
      Ok(SkipIf(m, m.regs[x] == nn))
    case SkipIfNotEqual(x, nn) =>
      Ok(SkipIf(m, m.regs[x] != nn))
    case SkipIfRegsEqual(x, y) =>
      Ok(SkipIf(m, m.regs[x] == m.regs[y]))
    case SetImm(x, nn) =>
      Ok(m.(regs := m.regs[x := nn]))
    case AddImm(x, nn) =>
      Ok(m.(regs := m.regs[x := Wrap8(m.regs[x] as int + nn as int)]))
    case Arith(op, x, y) =>
      Ok(m.(regs := Alu.Compute(op, m.regs, x, y)))
    case SkipIfRegsDiffer(x, y, _) =>
      Ok(SkipIf(m, m.regs[x] != m.regs[y]))
    case SetIndex(nnn) =>
      Ok(m.(index := nnn))
    case JumpOffset(nnn) =>
      Ok(m.(pc := nnn + m.regs[0]))
    case RandomAnd(x, nn) =>
      Ok(m.(regs := m.regs[x := And8(rnd, nn)]))
    case Draw(x, y, n) =>
      if n > 0 && m.index + n > MemSize then
        Err(RamOutOfRange(FirstOutOfRange(m.index, n)))
      else Ok(DrawSprite(m, x, y, n))
    case _ =>
      ExecuteKeyed(m, ins)
  }

  /** Executes an instruction of family E or F, whose low byte selects the operation. */
  function ExecuteKeyed(m: State, ins: Instr): (r: Result<State>)
    requires Keyed(ins)
    ensures r.Ok? ==> r.value.keyboard == m.keyboard
    ensures r.Ok? && !ins.WaitKey? ==> r.value.waitingForKey == m.waitingForKey
  {
    match ins
    case SkipIfKey(x) =>
      if m.regs[x] >= KeyCount then Err(KeyOutOfRange(m.regs[x]))
      else Ok(SkipIf(m, m.keyboard[m.regs[x]]))
    case SkipIfNotKey(x) =>
      if m.regs[x] >= KeyCount then Err(KeyOutOfRange(m.regs[x]))
      else Ok(SkipIf(m, !m.keyboard[m.regs[x]]))
    case ReadDelay(x) =>
      Ok(m.(regs := m.regs[x := m.delayTimer]))
    case WaitKey(x) =>
      Ok(WaitForKey(m, x))
    case SetDelay(x) =>
      Ok(m.(delayTimer := m.regs[x]))
    case SetSound(x) =>
      Ok(m.(soundTimer := m.regs[x]))
    case AddIndex(x) =>
      Ok(m.(index := Wrap16(m.index + m.regs[x])))
    case FontGlyph(x) =>
      Ok(m.(index := m.regs[x] as int * 5))
    case StoreBcd(x) =>
      if m.index + 3 > MemSize then Err(RamOutOfRange(FirstOutOfRange(m.index, 3)))
      else Ok(m.(ram := BcdInto(m.ram, m.index, m.regs[x])))
    case StoreRegs(x) =>
      if m.index + x + 1 > MemSize then Err(RamOutOfRange(FirstOutOfRange(m.index, x + 1)))
      else Ok(m.(ram := SaveBlock(m.ram, m.index, m.regs, x), index := Wrap16(m.index + x + 1)))
    case LoadRegs(x) =>
      if m.index + x + 1 > MemSize then Err(RamOutOfRange(FirstOutOfRange(m.index, x + 1)))
      else Ok(m.(regs := LoadBlock(m.ram, m.index, m.regs, x), index := Wrap16(m.index + x + 1)))
  }

  /** One call of `Step`. */
  function Step(m: State, tick: bool, rnd: u8): (r: Result<State>)
    ensures m.pc + 1 >= MemSize ==> r.Err? && r.error.RamOutOfRange? && r.error.address >= MemSize
    ensures r.Ok? ==> r.value.keyboard == m.keyboard
  {
    if m.pc >= MemSize then Err(RamOutOfRange(m.pc))
    else if m.pc + 1 >= MemSize then Err(RamOutOfRange(m.pc + 1))
    else
      match Decode(Fetch(m))
      case Err(e) => Err(e)
      case Ok(ins) => Execute(Advance(m, tick), ins, rnd)
  }

  /** The key change, if any, that the one event polled in a host-loop iteration delivers:
      a key down or a key up, already mapped to its CHIP-8 key index. */
  datatype KeyEvent = NoKeyEvent | Pressed(key: int) | Released(key: int)

  /** Delivers a key event to the CPU; only the keyboard can change. */
  function ApplyKey(m: State, e: KeyEvent): (r: State)
    ensures r.(keyboard := m.keyboard) == m
    ensures e.Pressed? && 0 <= e.key < KeyCount ==> r.keyboard[e.key]
    ensures e.Released? && 0 <= e.key < KeyCount ==> !r.keyboard[e.key]
    ensures forall k :: 0 <= k < KeyCount && (e.NoKeyEvent? || k != e.key) ==> r.keyboard[k] == m.keyboard[k]
  {
    match e
    case NoKeyEvent => m
    case Pressed(k) => Loader.KeyPress(m, k)
    case Released(k) => Loader.KeyRelease(m, k)
  }

  /** The inputs of one host-loop iteration: the key event handled before the step, whether
      the 16 ms timer period has elapsed, and the byte the random generator would return. */
  datatype Input = Input(key: KeyEvent, timerDue: bool, randomByte: u8)

  /** One host-loop iteration: hand the key event to the CPU, then step it. */
  function StepWith(m: State, input: Input): Result<State> {
    Step(ApplyKey(m, input.key), input.timerDue, input.randomByte)
  }

  /** Steps through the inputs in order, stopping at the first exception. */
  function Run(m: State, inputs: seq<Input>): Result<State>
    decreases |inputs|
  {
    if |inputs| == 0 then Ok(m)
    else if StepWith(m, inputs[0]).Err? then StepWith(m, inputs[0])
    else Run(StepWith(m, inputs[0]).value, inputs[1..])
  }
}

=== FILE: font.dfy ===
/** The built-in hexadecimal font: sixteen glyphs of five rows each, four pixels wide. */
module Font {
  import opened Bits

  const GlyphHeight := 5

  const Glyphs: seq<u8> := [
    0xF0, 0x90, 0x90, 0x90, 0xF0, // 0
    0x20, 0x60, 0x20, 0x20, 0x70, // 1
    0xF0, 0x10, 0xF0, 0x80, 0xF0, // 2
    0xF0, 0x10, 0xF0, 0x10, 0xF0, // 3
    0x90, 0x90, 0xF0, 0x10, 0x10, // 4
    0xF0, 0x80, 0xF0, 0x10, 0xF0, // 5
    0xF0, 0x80, 0xF0, 0x90, 0xF0, // 6
    0xF0, 0x10, 0x20, 0x40, 0x40, // 7
    0xF0, 0x90, 0xF0, 0x90, 0xF0, // 8
    0xF0, 0x90, 0xF0, 0x10, 0xF0, // 9
    0xF0, 0x90, 0xF0, 0x90, 0x90, // A
    0xE0, 0x90, 0xE0, 0x90, 0xE0, // B
    0xF0, 0x80, 0x80, 0x80, 0xF0, // C
    0xE0, 0x90, 0x90, 0x90, 0xE0, // D
    0xF0, 0x80, 0xF0, 0x80, 0xF0, // E
    0xF0, 0x80, 0xF0, 0x80, 0x80  // F
  ]
}

=== FILE: loader.dfy ===
/** The operations the host calls between steps: loading a ROM image and key events. */
module Loader {
  import opened Bits
  import opened Machine
  import Font

  /** `LoadProgram`: fresh zeroed memory with the font at address 0 and the program image at
      ProgramStart, and PC set to ProgramStart. Registers, I, the stack, the timers, the
      keyboard, the wait latch and the display are kept as they were. */
  function LoadProgram(m: State, program: seq<u8>): (r: Result<State>)
    ensures r.Ok? <==> |program| <= MaxProgramSize
    ensures r.Err? ==> r.error == RamOutOfRange(MemSize)
    ensures r.Ok? ==> r.value.pc == ProgramStart
    ensures r.Ok? ==> forall a :: 0 <= a < |Font.Glyphs| ==> r.value.ram[a] == Font.Glyphs[a]
    ensures r.Ok? ==> forall i :: 0 <= i < |program| ==> r.value.ram[ProgramStart + i] == program[i]
    ensures r.Ok? ==> forall a :: |Font.Glyphs| <= a < MemSize && !(ProgramStart <= a < ProgramStart + |program|) ==>
      r.value.ram[a] == 0
    ensures r.Ok? ==> r.value.(ram := m.ram, pc := m.pc) == m
  {
    if |program| > MaxProgramSize then
      Err(RamOutOfRange(MemSize))
    else
      var zeroed := seq(MemSize, _ => 0);
      var withFont := Font.Glyphs + zeroed[|Font.Glyphs|..];
      var ram := withFont[..ProgramStart] + program + withFont[ProgramStart + |program|..];
      Ok(m.(ram := ram, pc := ProgramStart))
  }

  /** Loading the same image twice is the same as loading it once. */
  lemma LoadIdempotent(m: State, program: seq<u8>)
    requires |program| <= MaxProgramSize
    ensures LoadProgram(LoadProgram(m, program).value, program) == LoadProgram(m, program)
  {
    var r1 := LoadProgram(m, program).value;
    var r2 := LoadProgram(r1, program).value;
    assert r2.ram == r1.ram by {
      forall a | 0 <= a < MemSize
        ensures r2.ram[a] == r1.ram[a]
      {
        if ProgramStart <= a < ProgramStart + |program| {
          assert r2.ram[ProgramStart + (a - ProgramStart)] == r1.ram[ProgramStart + (a - ProgramStart)];
        }
      }
    }
  }

  /** `KeyPress`: marks a key down; an index outside 0..15 is ignored. */
  function KeyPress(m: State, key: int): (r: State)
    ensures 0 <= key < KeyCount ==> r.keyboard[key]
    ensures forall k :: 0 <= k < KeyCount && k != key ==> r.keyboard[k] == m.keyboard[k]
    ensures r.(keyboard := m.keyboard) == m
  {
    if 0 <= key < KeyCount then m.(keyboard := m.keyboard[key := true]) else m
  }

  /** `KeyRelease`: marks a key up; an index outside 0..15 is ignored. */
  function KeyRelease(m: State, key: int): (r: State)
    ensures 0 <= key < KeyCount ==> !r.keyboard[key]
    ensures forall k :: 0 <= k < KeyCount && k != key ==> r.keyboard[k] == m.keyboard[k]
    ensures r.(keyboard := m.keyboard) == m
  {
    if 0 <= key < KeyCount then m.(keyboard := m.keyboard[key := false]) else m
  }

  /** Releasing a key that was up before it was pressed restores the state. */
  lemma ReleaseUndoesPress(m: State, key: int)
    requires 0 <= key < KeyCount ==> !m.keyboard[key]
    ensures KeyRelease(KeyPress(m, key), key) == m
  {
    var r := KeyRelease(KeyPress(m, key), key);
    assert r.keyboard == m.keyboard;
  }

  /** Key indices outside the keypad leave the state unchanged. */
  lemma OutOfRangeKeysIgnored(m: State, key: int)
    requires key < 0 || key >= KeyCount
    ensures KeyPress(m, key) == m && KeyRelease(m, key) == m
  {
  }
}

=== FILE: machine.dfy ===
/** The machine state owned by one CHIP-8 CPU object, and the outcomes of its operations. */
module Machine {
  import opened Bits

  const MemSize := 4096
  const ProgramStart := 512
  /** The longest program image that fits between ProgramStart and the end of memory. */
  const MaxProgramSize := MemSize - ProgramStart
  const RegCount := 16
  const KeyCount := 16
  const ScreenWidth := 64
  const ScreenHeight := 32
  const FrameSize := ScreenWidth * ScreenHeight
  /** VF, the register that also receives carry, borrow, shifted-out bit and collision. */
  const FlagReg := 0xF

  type Ram = s: seq<u8> | |s| == MemSize witness seq(4096, _ => 0)
  type Registers = s: seq<u8> | |s| == RegCount witness seq(16, _ => 0)
  type Keyboard = s: seq<bool> | |s| == KeyCount witness seq(16, _ => false)
  /** One byte per pixel, row-major: pixel (col, row) is at col + row * ScreenWidth. */
  type Frame = s: seq<u8> | |s| == FrameSize witness seq(2048, _ => 0)

  /** The fields of the CPU object. The call stack keeps its top element last. */
  datatype State = State(
    ram: Ram,
    regs: Registers,
    pc: u16,
    index: u16,
    stack: seq<u16>,
    delayTimer: u8,
    soundTimer: u8,
    keyboard: Keyboard,
    waitingForKey: bool,
    display: Frame)

  /** The exceptions a step or a program load can raise; each one ends the run. */
  datatype Error =
    | UnknownOpcode(opcode: u16)
    | UnsupportedVariant(opcode: u16)
    | StackUnderflow
    | RamOutOfRange(address: int)
    | KeyOutOfRange(key: int)

  datatype Option<+T> = None | Some(value: T)

  datatype Result<+T> = Ok(value: T) | Err(error: Error)

  function BlankFrame(): Frame { seq(FrameSize, _ => 0) }

  /** Every pixel is 0 or 1, as the display collaborator expects. */
  predicate FrameIsBinary(d: Frame) {
    forall k :: 0 <= k < |d| ==> d[k] == 0 || d[k] == 1
  }

  /** The first address of the block [start, start + count) that lies outside memory,
      i.e. the access at which the C# array indexing throws. */
  function FirstOutOfRange(start: nat, count: nat): (a: nat)
    requires count > 0 && start + count > MemSize
    ensures start <= a < start + count && a >= MemSize
    ensures a > start ==> a - 1 < MemSize
  {
    if start >= MemSize then start else MemSize
  }
}

=== FILE: opcode.dfy ===
/** The CHIP-8 instruction set as the CPU's `Step` switch recognises it: decoding a 16-bit
    opcode into an instruction, and the encoding that inverts it. */
module Opcode {
  import opened Bits
  import opened Machine

  /** The register-register operations of family 8, by their low nibble. */
  datatype AluOp =
    | Assign    // 8XY0
    | Or        // 8XY1
    | And       // 8XY2
    | Xor       // 8XY3
    | Add       // 8XY4
    | Sub       // 8XY5
    | ShiftRight // 8XY6
    | SubFrom   // 8XY7
    | ShiftLeft // 8XYE

  datatype Instr =
    | ClearScreen                        // 00E0
    | Return                             // 00EE
    | Jump(nnn: u12)                     // 1NNN
    | Call(nnn: u12)                     // 2NNN
    | SkipIfEqual(x: u4, nn: u8)         // 3XNN
    | SkipIfNotEqual(x: u4, nn: u8)      // 4XNN
    | SkipIfRegsEqual(x: u4, y: u4)      // 5XY0
    | SetImm(x: u4, nn: u8)              // 6XNN
    | AddImm(x: u4, nn: u8)              // 7XNN
    | Arith(op: AluOp, x: u4, y: u4)     // 8XYN
    | SkipIfRegsDiffer(x: u4, y: u4, n: u4) // 9XYN: the low nibble is not checked
    | SetIndex(nnn: u12)                 // ANNN
    | JumpOffset(nnn: u12)               // BNNN
    | RandomAnd(x: u4, nn: u8)           // CXNN
    | Draw(x: u4, y: u4, n: u4)          // DXYN
    | SkipIfKey(x: u4)                   // EX9E
    | SkipIfNotKey(x: u4)                // EXA1
    | ReadDelay(x: u4)                   // FX07
    | WaitKey(x: u4)                     // FX0A
    | SetDelay(x: u4)                    // FX15
    | SetSound(x: u4)                    // FX18
    | AddIndex(x: u4)                    // FX1E
    | FontGlyph(x: u4)                   // FX29
    | StoreBcd(x: u4)                    // FX33
    | StoreRegs(x: u4)                   // FX55
    | LoadRegs(x: u4)                    // FX65

  function AluCode(op: AluOp): u4 {
    match op
    case Assign => 0x0
    case Or => 0x1
    case And => 0x2
    case Xor => 0x3
    case Add => 0x4
    case Sub => 0x5
    case ShiftRight => 0x6
    case SubFrom => 0x7
    case ShiftLeft => 0xE
  }

  /** The operation family 8 selects for a low nibble, if any. */
  function AluOpOf(n: u4): (r: Option<AluOp>)
    ensures r.Some? <==> (n <= 7 || n == 0xE)
    ensures r.Some? ==> AluCode(r.value) == n
  {
    if n == 0x0 then Some(Assign)
    else if n == 0x1 then Some(Or)
    else if n == 0x2 then Some(And)
    else if n == 0x3 then Some(Xor)
    else if n == 0x4 then Some(Add)
    else if n == 0x5 then Some(Sub)
    else if n == 0x6 then Some(ShiftRight)
    else if n == 0x7 then Some(SubFrom)
    else if n == 0xE then Some(ShiftLeft)
    else None
  }

  lemma AluOpOfCode(op: AluOp)
    ensures AluOpOf(AluCode(op)) == Some(op)
  {
  }

  function Family(op: u16): u4 { op / 0x1000 }
  function X(op: u16): u4 { (op / 0x100) % 0x10 }
  function Y(op: u16): u4 { (op / 0x10) % 0x10 }
  function N(op: u16): u4 { op % 0x10 }
  function NN(op: u16): u8 { op % 0x100 }
  function NNN(op: u16): u12 { op % 0x1000 }

  /** The instruction the switch in `Step` executes for an opcode, or the exception it throws. */
  function Decode(op: u16): Result<Instr> {
    Dispatch(op, Family(op), X(op), Y(op), N(op), NN(op), NNN(op))
  }

  /** The switch of `Step` on the opcode's fields: the family, then the variant nibbles. */
  function Dispatch(op: u16, f: u4, x: u4, y: u4, n: u4, nn: u8, nnn: u12): Result<Instr> {
    if f == 0x0 then
      if op == 0x00E0 then Ok(ClearScreen)
      else if op == 0x00EE then Ok(Return)
      else Err(UnknownOpcode(op))
    else if f == 0x1 then Ok(Jump(nnn))
    else if f == 0x2 then Ok(Call(nnn))
    else if f == 0x3 then Ok(SkipIfEqual(x, nn))
    else if f == 0x4 then Ok(SkipIfNotEqual(x, nn))
    else if f == 0x5 then
      if n == 0 then Ok(SkipIfRegsEqual(x, y)) else Err(UnsupportedVariant(op))
    else if f == 0x6 then Ok(SetImm(x, nn))
    else if f == 0x7 then Ok(AddImm(x, nn))
    else if f == 0x8 then
      match AluOpOf(n)
      case Some(aluOp) => Ok(Arith(aluOp, x, y))
      case None => Err(UnknownOpcode(op))
    else if f == 0x9 then Ok(SkipIfRegsDiffer(x, y, n))
    else if f == 0xA then Ok(SetIndex(nnn))
    else if f == 0xB then Ok(JumpOffset(nnn))
    else if f == 0xC then Ok(RandomAnd(x, nn))
    else if f == 0xD then Ok(Draw(x, y, n))
    else if f == 0xE then DispatchKeys(op, x, nn)
    else DispatchMisc(op, x, nn)
  }

  /** The inner switch of family E on the low byte. */
  function DispatchKeys(op: u16, x: u4, nn: u8): Result<Instr> {
    if nn == 0x9E then Ok(SkipIfKey(x))
    else if nn == 0xA1 then Ok(SkipIfNotKey(x))
    else Err(UnknownOpcode(op))
  }

  /** The inner switch of family F on the low byte. */
  function DispatchMisc(op: u16, x: u4, nn: u8): Result<Instr> {
    if nn == 0x07 then Ok(ReadDelay(x))
    else if nn == 0x0A then Ok(WaitKey(x))
    else if nn == 0x15 then Ok(SetDelay(x))
    else if nn == 0x18 then Ok(SetSound(x))
    else if nn == 0x1E then Ok(AddIndex(x))
    else if nn == 0x29 then Ok(FontGlyph(x))
    else if nn == 0x33 then Ok(StoreBcd(x))
    else if nn == 0x55 then Ok(StoreRegs(x))
    else if nn == 0x65 then Ok(LoadRegs(x))
    else Err(UnknownOpcode(op))
  }

  function Word(f: u4, x: u4, y: u4, n: u4): u16 {
    f * 0x1000 + x * 0x100 + y * 0x10 + n
  }

  function WordXNN(f: u4, x: u4, nn: u8): u16 {
    f * 0x1000 + x * 0x100 + nn
  }

  function WordNNN(f: u4, nnn: u12): u16 {
    f * 0x1000 + nnn
  }

  /** The opcode of an instruction. */
  function Encode(ins: Instr): u16 {
    match ins
    case ClearScreen => 0x00E0
    case Return => 0x00EE
    case Jump(nnn) => WordNNN(0x1, nnn)
    case Call(nnn) => WordNNN(0x2, nnn)
    case SkipIfEqual(x, nn) => WordXNN(0x3, x, nn)
    case SkipIfNotEqual(x, nn) => WordXNN(0x4, x, nn)
    case SkipIfRegsEqual(x, y) => Word(0x5, x, y, 0)
    case SetImm(x, nn) => WordXNN(0x6, x, nn)
    case AddImm(x, nn) => WordXNN(0x7, x, nn)
    case Arith(aluOp, x, y) => Word(0x8, x, y, AluCode(aluOp))
    case SkipIfRegsDiffer(x, y, n) => Word(0x9, x, y, n)
    case SetIndex(nnn) => WordNNN(0xA, nnn)
    case JumpOffset(nnn) => WordNNN(0xB, nnn)
    case RandomAnd(x, nn) => WordXNN(0xC, x, nn)
    case Draw(x, y, n) => Word(0xD, x, y, n)
    case SkipIfKey(x) => WordXNN(0xE, x, 0x9E)
    case SkipIfNotKey(x) => WordXNN(0xE, x, 0xA1)
    case ReadDelay(x) => WordXNN(0xF, x, 0x07)
    case WaitKey(x) => WordXNN(0xF, x, 0x0A)
    case SetDelay(x) => WordXNN(0xF, x, 0x15)
    case SetSound(x) => WordXNN(0xF, x, 0x18)
    case AddIndex(x) => WordXNN(0xF, x, 0x1E)
    case FontGlyph(x) => WordXNN(0xF, x, 0x29)
    case StoreBcd(x) => WordXNN(0xF, x, 0x33)
    case StoreRegs(x) => WordXNN(0xF, x, 0x55)
    case LoadRegs(x) => WordXNN(0xF, x, 0x65)
  }

  /** The four nibbles of an opcode reassemble it. */
  lemma NibblesOfWord(op: u16)
    ensures op == Word(Family(op), X(op), Y(op), N(op))
    ensures NN(op) == Y(op) * 0x10 + N(op)
    ensures NNN(op) == X(op) * 0x100 + NN(op)
  {
    var n, a := op % 0x10, op / 0x10;
    var y, b := a % 0x10, a / 0x10;
    var x, f := b % 0x10, b / 0x10;
    assert op == 0x100 * b + (0x10 * y + n);
    QuotientOf(op, 0x100, b, 0x10 * y + n);
    assert op == 0x1000 * f + (0x100 * x + 0x10 * y + n);
    QuotientOf(op, 0x1000, f, 0x100 * x + 0x10 * y + n);
  }

  /** The quotient and remainder of a by 0x10, 0x100 or 0x1000, from any quotient-remainder split. */
  lemma QuotientOf(a: nat, d: nat, q: nat, r: nat)
    requires (d == 0x10 || d == 0x100 || d == 0x1000) && r < d && a == d * q + r
    ensures a / d == q && a % d == r
  {
    if d == 0x10 {
      assert a == 0x10 * q + r;
    } else if d == 0x100 {
      assert a == 0x100 * q + r;
    } else {
      assert a == 0x1000 * q + r;
    }
  }

  /** Decoding undoes encoding: every instruction is recognised from its own opcode. */
  lemma DecodeEncode(ins: Instr)
    ensures Decode(Encode(ins)) == Ok(ins)
  {
    if ins.Arith? || ins.SkipIfRegsEqual? || ins.SkipIfRegsDiffer? || ins.Draw? {
      DecodeEncodeXYN(ins);
    } else if ins.Jump? || ins.Call? || ins.SetIndex? || ins.JumpOffset? {
      DecodeEncodeNNN(ins);
    } else if !ins.ClearScreen? && !ins.Return? {
      DecodeEncodeXNN(ins);
    }
  }

  /** `DecodeEncode` for the instructions whose opcode holds two registers and a nibble. */
  lemma DecodeEncodeXYN(ins: Instr)
    requires ins.Arith? || ins.SkipIfRegsEqual? || ins.SkipIfRegsDiffer? || ins.Draw?
    ensures Decode(Encode(ins)) == Ok(ins)
  {
    match ins
    case Arith(aluOp, x, y) =>
      WordFields(0x8, x, y, AluCode(aluOp));
      AluOpOfCode(aluOp);
    case SkipIfRegsEqual(x, y) => WordFields(0x5, x, y, 0);
    case SkipIfRegsDiffer(x, y, n) => WordFields(0x9, x, y, n);
    case Draw(x, y, n) => WordFields(0xD, x, y, n);
  }

  /** `DecodeEncode` for the instructions whose opcode holds a 12-bit address. */
  lemma DecodeEncodeNNN(ins: Instr)
    requires ins.Jump? || ins.Call? || ins.SetIndex? || ins.JumpOffset?
    ensures Decode(Encode(ins)) == Ok(ins)
  {
    match ins
    case Jump(nnn) => WordNNNFields(0x1, nnn);
    case Call(nnn) => WordNNNFields(0x2, nnn);
    case SetIndex(nnn) => WordNNNFields(0xA, nnn);
    case JumpOffset(nnn) => WordNNNFields(0xB, nnn);
  }

  /** `DecodeEncode` for the instructions whose opcode holds a register and a byte. */
  lemma DecodeEncodeXNN(ins: Instr)
    requires !(ins.Arith? || ins.SkipIfRegsEqual? || ins.SkipIfRegsDiffer? || ins.Draw?)
    requires !(ins.Jump? || ins.Call? || ins.SetIndex? || ins.JumpOffset?)
    requires !(ins.ClearScreen? || ins.Return?)
    ensures Decode(Encode(ins)) == Ok(ins)
  {
    match ins
    case SkipIfEqual(x, nn) => WordXNNFields(0x3, x, nn);
    case SkipIfNotEqual(x, nn) => WordXNNFields(0x4, x, nn);
    case SetImm(x, nn) => WordXNNFields(0x6, x, nn);
    case AddImm(x, nn) => WordXNNFields(0x7, x, nn);
    case RandomAnd(x, nn) => WordXNNFields(0xC, x, nn);
    case _ => DecodeEncodeKeyed(ins);
  }

  /** The instructions of families E and F, whose low byte selects the operation. */
  predicate Keyed(ins: Instr) {
    ins.SkipIfKey? || ins.SkipIfNotKey? || ins.ReadDelay? || ins.WaitKey? || ins.SetDelay?
    || ins.SetSound? || ins.AddIndex? || ins.FontGlyph? || ins.StoreBcd? || ins.StoreRegs? || ins.LoadRegs?
  }

  /** The low byte that selects a keyed instruction. */
  function KeyedCode(ins: Instr): u8
    requires Keyed(ins)
  {
    match ins
    case SkipIfKey(_) => 0x9E
    case SkipIfNotKey(_) => 0xA1
    case ReadDelay(_) => 0x07
    case WaitKey(_) => 0x0A
    case SetDelay(_) => 0x15
    case SetSound(_) => 0x18
    case AddIndex(_) => 0x1E
    case FontGlyph(_) => 0x29
    case StoreBcd(_) => 0x33
    case StoreRegs(_) => 0x55
    case LoadRegs(_) => 0x65
  }

  /** `DecodeEncode` for the keyed instructions. */
  lemma DecodeEncodeKeyed(ins: Instr)
    requires Keyed(ins)
    ensures Decode(Encode(ins)) == Ok(ins)
  {
    if ins.SkipIfKey? || ins.SkipIfNotKey? {
      DecodeEncodeKeys(ins);
    } else {
      DecodeEncodeMisc(ins);
    }
  }

  lemma DecodeEncodeKeys(ins: Instr)
    requires ins.SkipIfKey? || ins.SkipIfNotKey?
    ensures Decode(Encode(ins)) == Ok(ins)
  {
    var op := WordXNN(0xE, ins.x, KeyedCode(ins));
    assert Encode(ins) == op;
    DecodeFamilyE(ins.x, KeyedCode(ins));
    assert DispatchKeys(op, ins.x, KeyedCode(ins)) == Ok(ins);
  }

  lemma DecodeEncodeMisc(ins: Instr)
    requires Keyed(ins) && !ins.SkipIfKey? && !ins.SkipIfNotKey?
    ensures Decode(Encode(ins)) == Ok(ins)
  {
    var op := WordXNN(0xF, ins.x, KeyedCode(ins));
    assert Encode(ins) == op;
    DecodeFamilyF(ins.x, KeyedCode(ins));
    assert DispatchMisc(op, ins.x, KeyedCode(ins)) == Ok(ins);
  }

  lemma DecodeFamilyE(x: u4, nn: u8)
    ensures Decode(WordXNN(0xE, x, nn)) == DispatchKeys(WordXNN(0xE, x, nn), x, nn)
  {
    WordXNNFields(0xE, x, nn);
  }

  lemma DecodeFamilyF(x: u4, nn: u8)
    ensures Decode(WordXNN(0xF, x, nn)) == DispatchMisc(WordXNN(0xF, x, nn), x, nn)
  {
    WordXNNFields(0xF, x, nn);
  }

  lemma WordXNNFields(f: u4, x: u4, nn: u8)
    ensures Family(WordXNN(f, x, nn)) == f && X(WordXNN(f, x, nn)) == x && NN(WordXNN(f, x, nn)) == nn
  {
    var op := WordXNN(f, x, nn);
    QuotientOf(op, 0x1000, f, x * 0x100 + nn);
    QuotientOf(op, 0x100, f * 0x10 + x, nn);
    QuotientOf(f * 0x10 + x, 0x10, f, x);
  }

  lemma WordNNNFields(f: u4, nnn: u12)
    ensures Family(WordNNN(f, nnn)) == f && NNN(WordNNN(f, nnn)) == nnn
  {
    QuotientOf(WordNNN(f, nnn), 0x1000, f, nnn);
  }

  lemma WordFields(f: u4, x: u4, y: u4, n: u4)
    ensures Family(Word(f, x, y, n)) == f && X(Word(f, x, y, n)) == x
    ensures Y(Word(f, x, y, n)) == y && N(Word(f, x, y, n)) == n
  {
    var op := Word(f, x, y, n);
    QuotientOf(op, 0x1000, f, x * 0x100 + y * 0x10 + n);
    QuotientOf(op, 0x100, f * 0x10 + x, y * 0x10 + n);
    QuotientOf(f * 0x10 + x, 0x10, f, x);
    QuotientOf(op, 0x10, f * 0x100 + x * 0x10 + y, n);
    QuotientOf(f * 0x100 + x * 0x10 + y, 0x10, f * 0x10 + x, y);
  }

  /** Encoding undoes decoding: an opcode that decodes is the encoding of its instruction. */
  lemma EncodeDecode(op: u16)
    requires Decode(op).Ok?
    ensures Encode(Decode(op).value) == op
  {
    NibblesOfWord(op);
  }

  /** An opcode is rejected exactly when no instruction encodes to it. */
  lemma DecodeFailsExactly(op: u16)
    ensures Decode(op).Err? <==> forall ins: Instr :: Encode(ins) != op
  {
    if Decode(op).Ok? {
      EncodeDecode(op);
    } else {
      forall ins: Instr
        ensures Encode(ins) != op
      {
        DecodeEncode(ins);
      }
    }
  }

  /** The decoder only ever rejects an opcode as unknown or as an unsupported variant, and
      names the opcode in the error. */
  lemma DecodeErrors(op: u16)
    requires Decode(op).Err?
    ensures Decode(op) == Err(UnknownOpcode(op)) || Decode(op) == Err(UnsupportedVariant(op))
  {
  }

  /** Family 8 rejects every low nibble outside 0..7 and E. */
  lemma ArithUnknownNibble(op: u16)
    requires Family(op) == 0x8 && !(N(op) <= 7 || N(op) == 0xE)
    ensures Decode(op) == Err(UnknownOpcode(op))
  {
  }

  /** Family 5 accepts only the low nibble 0. */
  lemma SkipRegsVariant(op: u16)
    requires Family(op) == 0x5 && N(op) != 0
    ensures Decode(op) == Err(UnsupportedVariant(op))
  {
  }
}

=== FILE: properties.dfy ===
/** Properties of one `Step`, stated for a state whose PC holds the opcode of a known
    instruction. */
module StepProperties {
  import opened Bits
  import opened Machine
  import opened Opcode
  import opened Cpu
  import Alu
  import Sprite
  import Font

  /** The two bytes at PC form an opcode that decodes to ins (by `DecodeEncode` and
      `EncodeDecode`, exactly when they are the opcode `Encode(ins)`). */
  predicate At(m: State, ins: Instr) {
    m.pc + 1 < MemSize && Decode(Fetch(m)) == Ok(ins)
  }

  /** A step runs the instruction at PC on the advanced state. */
  lemma StepRuns(m: State, ins: Instr, tick: bool, rnd: u8)
    requires At(m, ins)
    ensures Step(m, tick, rnd) == Execute(Advance(m, tick), ins, rnd)
  {
  }

  /** The instructions that can take PC anywhere but the next instruction. */
  predicate Transfers(ins: Instr) {
    ins.Return? || ins.Jump? || ins.Call? || ins.JumpOffset? || ins.WaitKey? || IsSkip(ins)
  }

  predicate IsSkip(ins: Instr) {
    ins.SkipIfEqual? || ins.SkipIfNotEqual? || ins.SkipIfRegsEqual? || ins.SkipIfRegsDiffer?
    || ins.SkipIfKey? || ins.SkipIfNotKey?
  }

  /** A key skip reads a keyboard entry only when Vx names one of the 16 keys. */
  predicate KeyInRange(m: State, ins: Instr) {
    (ins.SkipIfKey? || ins.SkipIfNotKey?) ==> m.regs[ins.x] < KeyCount
  }

  /** The condition under which a skip instruction skips, on the state before the step. */
  predicate SkipCondition(m: State, ins: Instr)
    requires IsSkip(ins) && KeyInRange(m, ins)
  {
    match ins
    case SkipIfEqual(x, nn) => m.regs[x] == nn
    case SkipIfNotEqual(x, nn) => m.regs[x] != nn
    case SkipIfRegsEqual(x, y) => m.regs[x] == m.regs[y]
    case SkipIfRegsDiffer(x, y, _) => m.regs[x] != m.regs[y]
    case SkipIfKey(x) => m.keyboard[m.regs[x]]
    case SkipIfNotKey(x) => !m.keyboard[m.regs[x]]
  }

  /** Every instruction that is not a jump, call, return, skip or key wait moves PC to the
      next instruction. */
  lemma SequentialAdvancesPc(m: State, ins: Instr, tick: bool, rnd: u8)
    requires At(m, ins) && !Transfers(ins)
    ensures Step(m, tick, rnd).Ok? ==> Step(m, tick, rnd).value.pc == m.pc + 2
  {
    var a := Advance(m, tick);
    assert a.pc == m.pc + 2;
    StepRuns(m, ins, tick, rnd);
    ExecuteKeepsPc(a, ins, rnd);
  }

  lemma ExecuteKeepsPc(m: State, ins: Instr, rnd: u8)
    requires !Transfers(ins)
    ensures Execute(m, ins, rnd).Ok? ==> Execute(m, ins, rnd).value.pc == m.pc
  {
    if Keyed(ins) {
      ExecuteKeyedKeepsPc(m, ins);
    } else {
      match ins
      case ClearScreen =>
      case SetImm(_, _) =>
      case AddImm(_, _) =>
      case Arith(_, _, _) =>
      case SetIndex(_) =>
      case RandomAnd(_, _) =>
      case Draw(_, _, _) =>
    }
  }

  lemma ExecuteKeyedKeepsPc(m: State, ins: Instr)
    requires Keyed(ins) && !Transfers(ins)
    ensures ExecuteKeyed(m, ins).Ok? ==> ExecuteKeyed(m, ins).value.pc == m.pc
  {
    match ins
    case ReadDelay(_) =>
    case SetDelay(_) =>
    case SetSound(_) =>
    case AddIndex(_) =>
    case FontGlyph(_) =>
    case StoreBcd(_) =>
    case StoreRegs(_) =>
    case LoadRegs(_) =>
  }

  /** A skip moves PC by four exactly when its condition holds, and by two otherwise. */
  lemma SkipAdvancesPc(m: State, ins: Instr, tick: bool, rnd: u8)
    requires At(m, ins) && IsSkip(ins) && KeyInRange(m, ins)
    ensures Step(m, tick, rnd).Ok?
    ensures Step(m, tick, rnd).value.pc == m.pc + 4 <==> SkipCondition(m, ins)
    ensures Step(m, tick, rnd).value.pc == m.pc + 2 <==> !SkipCondition(m, ins)
    ensures var r := Step(m, tick, rnd).value;
      r.regs == m.regs && r.ram == m.ram && r.index == m.index && r.stack == m.stack
  {
    StepRuns(m, ins, tick, rnd);
  }

  /** EX9E and EXA1 with Vx outside 0..15 index past the keyboard array. */
  lemma KeySkipOutOfRange(m: State, ins: Instr, tick: bool, rnd: u8)
    requires At(m, ins) && (ins.SkipIfKey? || ins.SkipIfNotKey?)
    ensures Step(m, tick, rnd).Err? <==> m.regs[ins.x] >= KeyCount
    ensures Step(m, tick, rnd).Err? ==> Step(m, tick, rnd).error == KeyOutOfRange(m.regs[ins.x])
  {
    StepRuns(m, ins, tick, rnd);
  }

  /** 00EE with an empty stack: the pop throws. */
  lemma ReturnOnEmptyStack(m: State, tick: bool, rnd: u8)
    requires At(m, Return) && |m.stack| == 0
    ensures Step(m, tick, rnd) == Err(StackUnderflow)
  {
    StepRuns(m, Return, tick, rnd);
  }

  /** 2NNN pushes the address of the next instruction and jumps to NNN. */
  lemma CallPushes(m: State, nnn: u12, tick: bool, rnd: u8)
    requires At(m, Call(nnn))
    ensures Step(m, tick, rnd).Ok?
    ensures var r := Step(m, tick, rnd).value;
      && r.pc == nnn && r.stack == m.stack + [m.pc + 2]
      && r.regs == m.regs && r.ram == m.ram && r.index == m.index
  {
    StepRuns(m, Call(nnn), tick, rnd);
  }

  /** 00EE on a non-empty stack pops its top into PC. */
  lemma ReturnPops(m: State, tick: bool, rnd: u8)
    requires At(m, Return) && |m.stack| > 0
    ensures Step(m, tick, rnd).Ok?
    ensures var r := Step(m, tick, rnd).value;
      && r.pc == m.stack[|m.stack| - 1] && r.stack == m.stack[..|m.stack| - 1]
      && r.regs == m.regs && r.ram == m.ram && r.index == m.index
  {
    StepRuns(m, Return, tick, rnd);
  }

  /** 2NNN pushes the address of the next instruction and jumps; a 00EE at the callee
      returns to it with the stack as it was before the call. */
  lemma CallThenReturn(m: State, nnn: u12, tick: bool, rnd: u8, tick': bool, rnd': u8)
    requires At(m, Call(nnn)) && nnn + 1 < MemSize
    requires m.ram[nnn] == 0x00 && m.ram[nnn + 1] == 0xEE
    ensures Step(m, tick, rnd).Ok?
    ensures var m1 := Step(m, tick, rnd).value;
      && m1.pc == nnn && m1.stack == m.stack + [m.pc + 2]
      && Step(m1, tick', rnd').Ok?
      && Step(m1, tick', rnd').value.pc == m.pc + 2
      && Step(m1, tick', rnd').value.stack == m.stack
  {
    StepRuns(m, Call(nnn), tick, rnd);
    var m1 := Step(m, tick, rnd).value;
    assert Fetch(m1) == 0x00EE;
    StepRuns(m1, Return, tick', rnd');
  }

  /** 00E0 blanks every pixel; nothing but the display changes beyond the step's own PC
      and timer update. */
  lemma ClearScreenBlanks(m: State, tick: bool, rnd: u8)
    requires At(m, ClearScreen)
    ensures Step(m, tick, rnd).Ok?
    ensures forall k :: 0 <= k < FrameSize ==> Step(m, tick, rnd).value.display[k] == 0
    ensures Step(m, tick, rnd).value.(display := m.display) == Advance(m, tick)
  {
    StepRuns(m, ClearScreen, tick, rnd);
  }

  /** FX0A with no key down parks: PC stays on the FX0A, the latch is set and no register
      changes, while the timers still tick. */
  lemma WaitParks(m: State, x: u4, tick: bool, rnd: u8)
    requires At(m, WaitKey(x)) && forall k :: 0 <= k < KeyCount ==> !m.keyboard[k]
    ensures Step(m, tick, rnd).Ok?
    ensures var r := Step(m, tick, rnd).value;
      && r.pc == m.pc && r.waitingForKey && r.regs == m.regs && r.ram == m.ram
      && r.delayTimer == TickTimer(m.delayTimer, tick) && r.soundTimer == TickTimer(m.soundTimer, tick)
  {
    var a := Advance(m, tick);
    StepRuns(m, WaitKey(x), tick, rnd);
    assert FirstKeyDown(m.keyboard, 0).None?;
    assert Step(m, tick, rnd) == Ok(a.(waitingForKey := true, pc := m.pc));
  }

  /** FX0A with some key down stores the lowest such key in Vx and moves on. */
  lemma WaitResumes(m: State, x: u4, k: nat, tick: bool, rnd: u8)
    requires At(m, WaitKey(x)) && k < KeyCount && m.keyboard[k]
    requires forall j :: 0 <= j < k ==> !m.keyboard[j]
    ensures Step(m, tick, rnd).Ok?
    ensures var r := Step(m, tick, rnd).value;
      && r.regs[x] == k && r.pc == m.pc + 2 && !r.waitingForKey
      && forall i :: 0 <= i < RegCount && i != x ==> r.regs[i] == m.regs[i]
  {
    var a := Advance(m, tick);
    StepRuns(m, WaitKey(x), tick, rnd);
    assert FirstKeyDown(m.keyboard, 0) == Some(k);
    assert Step(m, tick, rnd) == Ok(a.(regs := a.regs[x := k], waitingForKey := false));
  }

  /** A step clears the key-wait latch before running its instruction, and only FX0A sets it
      again: after any other instruction the latch is clear, whatever it was before. */
  lemma StepClearsLatch(m: State, ins: Instr, tick: bool, rnd: u8)
    requires At(m, ins) && !ins.WaitKey? && Step(m, tick, rnd).Ok?
    ensures !Step(m, tick, rnd).value.waitingForKey
  {
    StepRuns(m, ins, tick, rnd);
  }

  /** Only FX15 and FX18 set a timer; otherwise a step leaves each timer as the tick left it:
      one less when the period elapsed and it was not already zero. */
  lemma StepTicksTimers(m: State, ins: Instr, tick: bool, rnd: u8)
    requires At(m, ins) && Step(m, tick, rnd).Ok?
    ensures var r := Step(m, tick, rnd).value;
      && (!ins.SetDelay? ==> r.delayTimer == if tick && m.delayTimer > 0 then m.delayTimer - 1 else m.delayTimer)
      && (!ins.SetSound? ==> r.soundTimer == if tick && m.soundTimer > 0 then m.soundTimer - 1 else m.soundTimer)
  {
    var a := Advance(m, tick);
    StepRuns(m, ins, tick, rnd);
    ExecuteKeepsTimers(a, ins, rnd);
  }

  lemma ExecuteKeepsTimers(m: State, ins: Instr, rnd: u8)
    requires Execute(m, ins, rnd).Ok?
    ensures !ins.SetDelay? ==> Execute(m, ins, rnd).value.delayTimer == m.delayTimer
    ensures !ins.SetSound? ==> Execute(m, ins, rnd).value.soundTimer == m.soundTimer
  {
    if Keyed(ins) {
      ExecuteKeyedKeepsTimers(m, ins);
    } else {
      match ins
      case ClearScreen =>
      case Return =>
      case Jump(_) =>
      case Call(_) =>
      case SkipIfEqual(_, _) =>
      case SkipIfNotEqual(_, _) =>
      case SkipIfRegsEqual(_, _) =>
      case SetImm(_, _) =>
      case AddImm(_, _) =>
      case Arith(_, _, _) =>
      case SkipIfRegsDiffer(_, _, _) =>
      case SetIndex(_) =>
      case JumpOffset(_) =>
      case RandomAnd(_, _) =>
      case Draw(_, _, _) =>
    }
  }

  lemma ExecuteKeyedKeepsTimers(m: State, ins: Instr)
    requires Keyed(ins) && ExecuteKeyed(m, ins).Ok?
    ensures !ins.SetDelay? ==> ExecuteKeyed(m, ins).value.delayTimer == m.delayTimer
    ensures !ins.SetSound? ==> ExecuteKeyed(m, ins).value.soundTimer == m.soundTimer
  {
    match ins
    case SkipIfKey(_) =>
    case SkipIfNotKey(_) =>
    case ReadDelay(_) =>
    case WaitKey(_) =>
    case SetDelay(_) =>
    case SetSound(_) =>
    case AddIndex(_) =>
    case FontGlyph(_) =>
    case StoreBcd(_) =>
    case StoreRegs(_) =>
    case LoadRegs(_) =>
  }

  /** The instructions that can write a register, VF included. */
  predicate WritesRegs(ins: Instr) {
    ins.SetImm? || ins.AddImm? || ins.Arith? || ins.RandomAnd? || ins.Draw?
    || ins.ReadDelay? || ins.WaitKey? || ins.LoadRegs?
  }

  /** The instructions that can write I. */
  predicate WritesIndex(ins: Instr) {
    ins.SetIndex? || ins.AddIndex? || ins.FontGlyph? || ins.StoreRegs? || ins.LoadRegs?
  }

  /** The instructions that can write memory. */
  predicate WritesRam(ins: Instr) {
    ins.StoreBcd? || ins.StoreRegs?
  }

  /** The instructions that push or pop the call stack. */
  predicate WritesStack(ins: Instr) {
    ins.Call? || ins.Return?
  }

  /** A step keeps the registers, I, memory and the call stack unless its instruction is
      one that writes them. */
  lemma StepFrame(m: State, ins: Instr, tick: bool, rnd: u8)
    requires At(m, ins) && Step(m, tick, rnd).Ok?
    ensures var r := Step(m, tick, rnd).value;
      && (!WritesRegs(ins) ==> r.regs == m.regs)
      && (!WritesIndex(ins) ==> r.index == m.index)
      && (!WritesRam(ins) ==> r.ram == m.ram)
      && (!WritesStack(ins) ==> r.stack == m.stack)
  {
    StepRuns(m, ins, tick, rnd);
    ExecuteFrame(Advance(m, tick), ins, rnd);
  }

  lemma ExecuteFrame(m: State, ins: Instr, rnd: u8)
    requires Execute(m, ins, rnd).Ok?
    ensures var r := Execute(m, ins, rnd).value;
      && (!WritesRegs(ins) ==> r.regs == m.regs)
      && (!WritesIndex(ins) ==> r.index == m.index)
      && (!WritesRam(ins) ==> r.ram == m.ram)
      && (!WritesStack(ins) ==> r.stack == m.stack)
  {
    if Keyed(ins) {
      ExecuteKeyedFrame(m, ins);
    } else if ins.SetImm? || ins.AddImm? || ins.Arith? || ins.SetIndex? {
      ExecuteDataFrame(m, ins, rnd);
    } else if ins.RandomAnd? {
      ExecuteRandomFrame(m, ins, rnd);
    } else if ins.Draw? {
      assert Execute(m, ins, rnd) == Ok(DrawSprite(m, ins.x, ins.y, ins.n));
    } else {
      ExecuteControlFrame(m, ins, rnd);
    }
  }

  /** The frame of 00E0 and of the jumps, calls, returns and register skips. */
  lemma ExecuteControlFrame(m: State, ins: Instr, rnd: u8)
    requires ins.ClearScreen? || ins.Return? || ins.Jump? || ins.Call? || ins.JumpOffset?
      || ins.SkipIfEqual? || ins.SkipIfNotEqual? || ins.SkipIfRegsEqual? || ins.SkipIfRegsDiffer?
    requires Execute(m, ins, rnd).Ok?
    ensures var r := Execute(m, ins, rnd).value;
      && (!WritesRegs(ins) ==> r.regs == m.regs)
      && (!WritesIndex(ins) ==> r.index == m.index)
      && (!WritesRam(ins) ==> r.ram == m.ram)
      && (!WritesStack(ins) ==> r.stack == m.stack)
  {
    match ins
    case ClearScreen =>
    case Return =>
    case Jump(_) =>
    case Call(_) =>
    case SkipIfEqual(_, _) =>
    case SkipIfNotEqual(_, _) =>
    case SkipIfRegsEqual(_, _) =>
    case SkipIfRegsDiffer(_, _, _) =>
    case JumpOffset(_) =>
  }

  /** The frame of the register and index instructions outside families E and F. */
  lemma ExecuteDataFrame(m: State, ins: Instr, rnd: u8)
    requires ins.SetImm? || ins.AddImm? || ins.Arith? || ins.SetIndex?
    requires Execute(m, ins, rnd).Ok?
    ensures var r := Execute(m, ins, rnd).value;
      && (!WritesRegs(ins) ==> r.regs == m.regs)
      && (!WritesIndex(ins) ==> r.index == m.index)
      && (!WritesRam(ins) ==> r.ram == m.ram)
      && (!WritesStack(ins) ==> r.stack == m.stack)
  {
    match ins
    case SetImm(_, _) =>
    case AddImm(_, _) =>
    case Arith(_, _, _) =>
    case SetIndex(_) =>
  }

  /** The frame of CXNN, which writes only Vx. */
  lemma ExecuteRandomFrame(m: State, ins: Instr, rnd: u8)
    requires ins.RandomAnd?
    requires Execute(m, ins, rnd).Ok?
    ensures var r := Execute(m, ins, rnd).value;
      && (!WritesRegs(ins) ==> r.regs == m.regs)
      && (!WritesIndex(ins) ==> r.index == m.index)
      && (!WritesRam(ins) ==> r.ram == m.ram)
      && (!WritesStack(ins) ==> r.stack == m.stack)
  {
    match ins
    case RandomAnd(_, _) =>
  }

  lemma ExecuteKeyedFrame(m: State, ins: Instr)
    requires Keyed(ins) && ExecuteKeyed(m, ins).Ok?
    ensures var r := ExecuteKeyed(m, ins).value;
      && (!WritesRegs(ins) ==> r.regs == m.regs)
      && (!WritesIndex(ins) ==> r.index == m.index)
      && (!WritesRam(ins) ==> r.ram == m.ram)
      && (!WritesStack(ins) ==> r.stack == m.stack)
  {
    match ins
    case SkipIfKey(_) =>
    case SkipIfNotKey(_) =>
    case ReadDelay(_) =>
    case WaitKey(_) =>
    case SetDelay(_) =>
    case SetSound(_) =>
    case AddIndex(_) =>
    case FontGlyph(_) =>
    case StoreBcd(_) =>
    case StoreRegs(_) =>
    case LoadRegs(_) =>
  }

  /** FX15 and FX18 load a timer from Vx; the value set replaces the step's tick. */
  lemma SetTimerLoads(m: State, ins: Instr, tick: bool, rnd: u8)
    requires At(m, ins) && (ins.SetDelay? || ins.SetSound?)
    ensures Step(m, tick, rnd).Ok?
    ensures ins.SetDelay? ==> Step(m, tick, rnd).value.delayTimer == m.regs[ins.x]
    ensures ins.SetSound? ==> Step(m, tick, rnd).value.soundTimer == m.regs[ins.x]
    ensures var r := Step(m, tick, rnd).value;
      && r.pc == m.pc + 2 && r.regs == m.regs && r.ram == m.ram && r.index == m.index && r.stack == m.stack
  {
    var a := Advance(m, tick);
    StepRuns(m, ins, tick, rnd);
    if ins.SetDelay? {
      assert Step(m, tick, rnd) == Ok(a.(delayTimer := a.regs[ins.x]));
    } else {
      assert Step(m, tick, rnd) == Ok(a.(soundTimer := a.regs[ins.x]));
    }
  }

  /** FX07 reads the delay timer after this step's tick. */
  lemma ReadDelayAfterTick(m: State, x: u4, tick: bool, rnd: u8)
    requires At(m, ReadDelay(x))
    ensures Step(m, tick, rnd).Ok?
    ensures Step(m, tick, rnd).value.regs[x] == TickTimer(m.delayTimer, tick)
    ensures var r := Step(m, tick, rnd).value;
      && (forall i :: 0 <= i < RegCount && i != x ==> r.regs[i] == m.regs[i])
      && r.ram == m.ram && r.index == m.index && r.stack == m.stack
  {
    var a := Advance(m, tick);
    StepRuns(m, ReadDelay(x), tick, rnd);
    assert Step(m, tick, rnd) == Ok(a.(regs := a.regs[x := a.delayTimer]));
  }

  /** FX33 writes the decimal digits of Vx at I, I + 1 and I + 2 and nothing else; when the
      three bytes do not fit below the end of memory the write throws. */
  lemma StoreBcdDigits(m: State, x: u4, tick: bool, rnd: u8)
    requires At(m, StoreBcd(x))
    ensures Step(m, tick, rnd).Ok? <==> m.index + 3 <= MemSize
    ensures Step(m, tick, rnd).Err? ==>
      Step(m, tick, rnd).error == RamOutOfRange(if m.index >= MemSize then m.index else MemSize)
    ensures Step(m, tick, rnd).Ok? ==> var r := Step(m, tick, rnd).value;
      && r.ram[m.index] < 10 && r.ram[m.index + 1] < 10 && r.ram[m.index + 2] < 10
      && 100 * r.ram[m.index] as int + 10 * r.ram[m.index + 1] as int + r.ram[m.index + 2] as int == m.regs[x] as int
      && (forall j :: 0 <= j < MemSize && !(m.index <= j < m.index + 3) ==> r.ram[j] == m.ram[j])
      && r.regs == m.regs && r.index == m.index
  {
    var a := Advance(m, tick);
    StepRuns(m, StoreBcd(x), tick, rnd);
    if m.index + 3 <= MemSize {
      assert Step(m, tick, rnd) == Ok(a.(ram := BcdInto(a.ram, a.index, a.regs[x])));
    } else {
      assert Step(m, tick, rnd) == Err(RamOutOfRange(FirstOutOfRange(m.index, 3)));
    }
  }

  /** FX55 stores V0..Vx at I.. and advances I past them; it throws when the block does
      not fit in memory. */
  lemma StoreRegsBlock(m: State, x: u4, tick: bool, rnd: u8)
    requires At(m, StoreRegs(x))
    ensures Step(m, tick, rnd).Ok? <==> m.index + x + 1 <= MemSize
    ensures Step(m, tick, rnd).Err? ==>
      Step(m, tick, rnd).error == RamOutOfRange(if m.index >= MemSize then m.index else MemSize)
    ensures Step(m, tick, rnd).Ok? ==> var r := Step(m, tick, rnd).value;
      && (forall i :: 0 <= i <= x ==> r.ram[m.index + i] == m.regs[i])
      && (forall j :: 0 <= j < MemSize && !(m.index <= j <= m.index + x) ==> r.ram[j] == m.ram[j])
      && r.index == m.index + x + 1 && r.regs == m.regs
  {
    var a := Advance(m, tick);
    StepRuns(m, StoreRegs(x), tick, rnd);
    if m.index + x + 1 <= MemSize {
      assert Step(m, tick, rnd) ==
        Ok(a.(ram := SaveBlock(a.ram, a.index, a.regs, x), index := Wrap16(a.index + x + 1)));
    } else {
      assert Step(m, tick, rnd) == Err(RamOutOfRange(FirstOutOfRange(m.index, x + 1)));
    }
  }

  /** FX65 loads V0..Vx from I.. and advances I past them; it throws when the block does
      not fit in memory. */
  lemma LoadRegsBlock(m: State, x: u4, tick: bool, rnd: u8)
    requires At(m, LoadRegs(x))
    ensures Step(m, tick, rnd).Ok? <==> m.index + x + 1 <= MemSize
    ensures Step(m, tick, rnd).Err? ==>
      Step(m, tick, rnd).error == RamOutOfRange(if m.index >= MemSize then m.index else MemSize)
    ensures Step(m, tick, rnd).Ok? ==> var r := Step(m, tick, rnd).value;
      && (forall i :: 0 <= i <= x ==> r.regs[i] == m.ram[m.index + i])
      && (forall i :: x < i < RegCount ==> r.regs[i] == m.regs[i])
      && r.index == m.index + x + 1 && r.ram == m.ram
  {
    var a := Advance(m, tick);
    StepRuns(m, LoadRegs(x), tick, rnd);
    if m.index + x + 1 <= MemSize {
      assert Step(m, tick, rnd) ==
        Ok(a.(regs := LoadBlock(a.ram, a.index, a.regs, x), index := Wrap16(a.index + x + 1)));
    } else {
      assert Step(m, tick, rnd) == Err(RamOutOfRange(FirstOutOfRange(m.index, x + 1)));
    }
  }

  /** Loading a block just saved from the same address gives back the saved registers. */
  lemma SaveThenLoadRestores(ram: Ram, a: nat, regs: Registers, other: Registers, x: u4)
    requires a + x + 1 <= MemSize
    ensures LoadBlock(SaveBlock(ram, a, regs, x), a, other, x)[..x + 1] == regs[..x + 1]
  {
    var r := LoadBlock(SaveBlock(ram, a, regs, x), a, other, x);
    forall i | 0 <= i <= x
      ensures r[i] == regs[i]
    {
    }
  }

  /** 6XNN loads NN into Vx and no other register. */
  lemma SetImmLoads(m: State, x: u4, nn: u8, tick: bool, rnd: u8)
    requires At(m, SetImm(x, nn))
    ensures Step(m, tick, rnd).Ok?
    ensures var r := Step(m, tick, rnd).value;
      && r.regs[x] == nn && r.pc == m.pc + 2 && r.ram == m.ram && r.index == m.index
      && forall i :: 0 <= i < RegCount && i != x ==> r.regs[i] == m.regs[i]
  {
    var a := Advance(m, tick);
    StepRuns(m, SetImm(x, nn), tick, rnd);
    assert Step(m, tick, rnd) == Ok(a.(regs := a.regs[x := nn]));
  }

  /** 8XYN runs the ALU on the advanced state: the step succeeds and its registers are
      exactly those `Alu.Compute` gives, so the ALU lemmas hold of every 8XYN step. */
  lemma ArithSteps(m: State, op: AluOp, x: u4, y: u4, tick: bool, rnd: u8)
    requires At(m, Arith(op, x, y))
    ensures Step(m, tick, rnd) == Ok(Advance(m, tick).(regs := Alu.Compute(op, m.regs, x, y)))
  {
    StepRuns(m, Arith(op, x, y), tick, rnd);
  }

  /** ANNN sets I to NNN and otherwise only advances. */
  lemma SetIndexSteps(m: State, nnn: u12, tick: bool, rnd: u8)
    requires At(m, SetIndex(nnn))
    ensures Step(m, tick, rnd) == Ok(Advance(m, tick).(index := nnn))
  {
    StepRuns(m, SetIndex(nnn), tick, rnd);
  }

  /** An opcode the switch does not recognise ends the run with the decoder's error, before
      any effect of the step. */
  lemma UnknownOpcodeHalts(m: State, tick: bool, rnd: u8)
    requires m.pc + 1 < MemSize && Decode(Fetch(m)).Err?
    ensures Step(m, tick, rnd) == Err(Decode(Fetch(m)).error)
    ensures Step(m, tick, rnd).error.UnknownOpcode? || Step(m, tick, rnd).error.UnsupportedVariant?
  {
    DecodeErrors(Fetch(m));
  }

  /** 7XNN adds modulo 256 and, unlike 8XY4, leaves VF alone (unless x is F). */
  lemma AddImmWraps(m: State, x: u4, nn: u8, tick: bool, rnd: u8)
    requires At(m, AddImm(x, nn))
    ensures Step(m, tick, rnd).Ok?
    ensures var r := Step(m, tick, rnd).value;
      && r.regs[x] as int == (m.regs[x] as int + nn as int) % 256
      && forall i :: 0 <= i < RegCount && i != x ==> r.regs[i] == m.regs[i]
  {
    var a := Advance(m, tick);
    StepRuns(m, AddImm(x, nn), tick, rnd);
    assert Step(m, tick, rnd) == Ok(a.(regs := a.regs[x := Wrap8(a.regs[x] as int + nn as int)]));
  }

  /** FX1E adds Vx to I modulo 65536 and sets no flag. */
  lemma AddIndexWraps(m: State, x: u4, tick: bool, rnd: u8)
    requires At(m, AddIndex(x))
    ensures Step(m, tick, rnd).Ok?
    ensures var r := Step(m, tick, rnd).value;
      && r.index == (m.index + m.regs[x]) % 0x1_0000 && r.regs == m.regs
  {
    var a := Advance(m, tick);
    StepRuns(m, AddIndex(x), tick, rnd);
    assert Step(m, tick, rnd) == Ok(a.(index := Wrap16(a.index + a.regs[x])));
  }

  /** CXNN keeps exactly the bits of the random byte that NN selects. */
  lemma RandomMasked(m: State, x: u4, nn: u8, tick: bool, rnd: u8, k: nat)
    requires At(m, RandomAnd(x, nn)) && k < 8
    ensures Step(m, tick, rnd).Ok?
    ensures Bit(Step(m, tick, rnd).value.regs[x], k) == (Bit(rnd, k) && Bit(nn, k))
    ensures nn == 0 ==> Step(m, tick, rnd).value.regs[x] == 0
    ensures var r := Step(m, tick, rnd).value;
      && (forall i :: 0 <= i < RegCount && i != x ==> r.regs[i] == m.regs[i])
      && r.ram == m.ram && r.index == m.index && r.stack == m.stack
  {
    var a := Advance(m, tick);
    StepRuns(m, RandomAnd(x, nn), tick, rnd);
    assert Step(m, tick, rnd) == Ok(a.(regs := a.regs[x := And8(rnd, nn)]));
    BitwiseBit(AndGate, rnd, nn, 8, k);
    BitwiseZero(rnd, 8);
  }

  /** The effect of DXYN with sprite rows `rows`, drawn on display d with registers regs:
      each cell of the display is toggled exactly when a set sprite pixel lands on it, VF is
      1 exactly when one lands on a cell that was 1, and the origin is (Vx mod 64, Vy mod 32)
      taken before VF is cleared. */
  predicate DrawnFrom(d: Frame, regs: Registers, rows: seq<u8>, r: State, x: u4, y: u4)
    requires |rows| <= ScreenHeight
  {
    var cx, cy := regs[x] % ScreenWidth, regs[y] % ScreenHeight;
    && (forall k :: 0 <= k < FrameSize ==>
          r.display[k] == if Sprite.Lit(rows, cx, cy, 8 * |rows|, k) then Xor8(d[k], 1) else d[k])
    && (r.regs[FlagReg] == 1 <==> Sprite.Collides(d, rows, cx, cy, 8 * |rows|))
    && (r.regs[FlagReg] == 0 <==> !Sprite.Collides(d, rows, cx, cy, 8 * |rows|))
    && (forall i :: 0 <= i < FlagReg ==> r.regs[i] == regs[i])
  }

  lemma DrawSpriteEffect(m: State, x: u4, y: u4, n: u4)
    requires n == 0 || m.index + n <= MemSize
    ensures DrawnFrom(m.display, m.regs, SpriteRows(m, n), DrawSprite(m, x, y, n), x, y)
    ensures DrawSprite(m, x, y, n).(display := m.display, regs := m.regs) == m
  {
    var rows := SpriteRows(m, n);
    var cx, cy := m.regs[x] % ScreenWidth, m.regs[y] % ScreenHeight;
    Sprite.DrawPrefixClosedForm(m.display, rows, cx, cy, 8 * n);
  }

  /** DXYN reads its N rows from I..I+N-1 and throws at the first row past the end of
      memory; otherwise it draws as `DrawnFrom` says, changes nothing else, and moves on to
      the next instruction. */
  lemma DrawStep(m: State, x: u4, y: u4, n: u4, tick: bool, rnd: u8)
    requires At(m, Draw(x, y, n))
    ensures Step(m, tick, rnd).Ok? <==> n == 0 || m.index + n <= MemSize
    ensures Step(m, tick, rnd).Err? ==>
      Step(m, tick, rnd).error == RamOutOfRange(if m.index >= MemSize then m.index else MemSize)
    ensures Step(m, tick, rnd).Ok? ==>
      var r := Step(m, tick, rnd).value;
      && DrawnFrom(m.display, m.regs, SpriteRows(m, n), r, x, y)
      && r.(display := m.display, regs := m.regs) == Advance(m, tick)
  {
    DrawStepRuns(m, x, y, n, tick, rnd);
    if n == 0 || m.index + n <= MemSize {
      DrawStepDraws(m, x, y, n, tick);
    }
  }

  /** DXYN with its rows in memory, on the state `Advance` has prepared. */
  lemma DrawStepDraws(m: State, x: u4, y: u4, n: u4, tick: bool)
    requires n == 0 || m.index + n <= MemSize
    ensures var r := DrawSprite(Advance(m, tick), x, y, n);
      && DrawnFrom(m.display, m.regs, SpriteRows(m, n), r, x, y)
      && r.(display := m.display, regs := m.regs) == Advance(m, tick)
  {
    var a := Advance(m, tick);
    DrawSpriteEffect(a, x, y, n);
    assert a.display == m.display && a.regs == m.regs;
    assert SpriteRows(a, n) == SpriteRows(m, n);
  }

  /** The outcome of DXYN at a step, before its effect is spelled out. */
  lemma DrawStepRuns(m: State, x: u4, y: u4, n: u4, tick: bool, rnd: u8)
    requires At(m, Draw(x, y, n))
    ensures n == 0 || m.index + n <= MemSize ==> Step(m, tick, rnd) == Ok(DrawSprite(Advance(m, tick), x, y, n))
    ensures n > 0 && m.index + n > MemSize ==> Step(m, tick, rnd) == Err(RamOutOfRange(FirstOutOfRange(m.index, n)))
  {
    StepRuns(m, Draw(x, y, n), tick, rnd);
  }

  /** Executing the same DXYN twice in a row, with Vx and Vy not VF, restores the display. */
  lemma DrawTwiceAtStep(m: State, x: u4, y: u4, n: u4, tick: bool, rnd: u8, tick': bool, rnd': u8)
    requires At(m, Draw(x, y, n)) && x != FlagReg && y != FlagReg
    requires n == 0 || m.index + n <= MemSize
    requires Step(m, tick, rnd).Ok? && At(Step(m, tick, rnd).value, Draw(x, y, n))
    ensures Step(Step(m, tick, rnd).value, tick', rnd').Ok?
    ensures Step(Step(m, tick, rnd).value, tick', rnd').value.display == m.display
  {
    var m1 := Step(m, tick, rnd).value;
    var rows := SpriteRows(m, n);
    var cx, cy := m.regs[x] % ScreenWidth, m.regs[y] % ScreenHeight;
    DrawStep(m, x, y, n, tick, rnd);
    assert m1.ram == m.ram && m1.index == m.index;
    assert m1.regs[x] == m.regs[x] && m1.regs[y] == m.regs[y];
    assert SpriteRows(m1, n) == rows;
    DrawStep(m1, x, y, n, tick', rnd');
    var m2 := Step(m1, tick', rnd').value;
    forall k | 0 <= k < FrameSize
      ensures m2.display[k] == m.display[k]
    {
      if Sprite.Lit(rows, cx, cy, 8 * n, k) {
        FlipLowBitTwice(m.display[k]);
      }
    }
  }

  /** A display of zeros and ones stays so: only 00E0 and DXYN write it. */
  lemma StepKeepsFrameBinary(m: State, ins: Instr, tick: bool, rnd: u8)
    requires At(m, ins) && FrameIsBinary(m.display) && Step(m, tick, rnd).Ok?
    ensures FrameIsBinary(Step(m, tick, rnd).value.display)
  {
    var a := Advance(m, tick);
    StepRuns(m, ins, tick, rnd);
    if ins.Draw? {
      var rows := SpriteRows(m, ins.n);
      var cx, cy := m.regs[ins.x] % ScreenWidth, m.regs[ins.y] % ScreenHeight;
      assert Step(m, tick, rnd) == Ok(DrawSprite(a, ins.x, ins.y, ins.n));
      assert SpriteRows(a, ins.n) == rows;
      Sprite.DrawKeepsBinary(m.display, rows, cx, cy);
    } else if !ins.ClearScreen? {
      ExecuteKeepsDisplay(a, ins, rnd);
    }
  }

  lemma ExecuteKeepsDisplay(m: State, ins: Instr, rnd: u8)
    requires Execute(m, ins, rnd).Ok? && !ins.ClearScreen? && !ins.Draw?
    ensures Execute(m, ins, rnd).value.display == m.display
  {
    if Keyed(ins) {
      ExecuteKeyedKeepsDisplay(m, ins);
    } else {
      match ins
      case Return =>
      case Jump(_) =>
      case Call(_) =>
      case SkipIfEqual(_, _) =>
      case SkipIfNotEqual(_, _) =>
      case SkipIfRegsEqual(_, _) =>
      case SetImm(_, _) =>
      case AddImm(_, _) =>
      case Arith(_, _, _) =>
      case SkipIfRegsDiffer(_, _, _) =>
      case SetIndex(_) =>
      case JumpOffset(_) =>
      case RandomAnd(_, _) =>
    }
  }

  lemma ExecuteKeyedKeepsDisplay(m: State, ins: Instr)
    requires Keyed(ins) && ExecuteKeyed(m, ins).Ok?
    ensures ExecuteKeyed(m, ins).value.display == m.display
  {
    match ins
    case SkipIfKey(_) =>
    case SkipIfNotKey(_) =>
    case ReadDelay(_) =>
    case WaitKey(_) =>
    case SetDelay(_) =>
    case SetSound(_) =>
    case AddIndex(_) =>
    case FontGlyph(_) =>
    case StoreBcd(_) =>
    case StoreRegs(_) =>
    case LoadRegs(_) =>
  }

  /** 1NNN and BNNN jump; BNNN adds V0 without wrapping to twelve bits, so a target at or
      past the last byte of memory makes the next fetch throw. */
  lemma JumpTargets(m: State, ins: Instr, tick: bool, rnd: u8, tick': bool, rnd': u8)
    requires At(m, ins) && (ins.Jump? || ins.JumpOffset?)
    ensures Step(m, tick, rnd).Ok?
    ensures ins.Jump? ==> Step(m, tick, rnd).value.pc == ins.nnn
    ensures ins.JumpOffset? ==> Step(m, tick, rnd).value.pc == ins.nnn + m.regs[0]
    ensures ins.JumpOffset? && ins.nnn + m.regs[0] >= MemSize - 1 ==>
      Step(Step(m, tick, rnd).value, tick', rnd').Err?
    ensures var r := Step(m, tick, rnd).value;
      r.regs == m.regs && r.ram == m.ram && r.index == m.index && r.stack == m.stack
  {
    StepRuns(m, ins, tick, rnd);
  }

  /** The font as `LoadProgram` places it at address 0. */
  predicate FontLoaded(m: State) {
    forall a :: 0 <= a < |Font.Glyphs| ==> m.ram[a] == Font.Glyphs[a]
  }

  /** FX29 sets I to five times Vx, without masking Vx to a hex digit; for a digit, I then
      points at its glyph when the font is in place. */
  lemma FontGlyphAddress(m: State, x: u4, tick: bool, rnd: u8)
    requires At(m, FontGlyph(x))
    ensures Step(m, tick, rnd).Ok?
    ensures var r := Step(m, tick, rnd).value;
      && r.index == Font.GlyphHeight * m.regs[x] && r.regs == m.regs && r.ram == m.ram
      && (FontLoaded(m) && m.regs[x] < 16 ==>
            r.ram[r.index .. r.index + Font.GlyphHeight] == Font.Glyphs[r.index .. r.index + Font.GlyphHeight])
  {
    var a := Advance(m, tick);
    StepRuns(m, FontGlyph(x), tick, rnd);
    assert Step(m, tick, rnd) == Ok(a.(index := a.regs[x] as int * 5));
  }
}

=== FILE: runs.dfy ===
/** Properties of several steps in a row, as the host loop drives them. */
module RunProperties {
  import opened Bits
  import opened Machine
  import opened Opcode
  import opened Cpu
  import opened StepProperties

  /** How many of the inputs have the timer period elapsed. */
  function Ticks(inputs: seq<Input>): (t: nat)
    ensures t <= |inputs|
  {
    if |inputs| == 0 then 0
    else (if inputs[0].timerDue then 1 else 0) + Ticks(inputs[1..])
  }

  /** Running two input sequences back to back is running the first and then, unless it
      stopped at an exception, the second from where the first left off. */
  lemma {:induction false} RunAppend(m: State, first: seq<Input>, second: seq<Input>)
    ensures Run(m, first + second) ==
      if Run(m, first).Ok? then Run(Run(m, first).value, second) else Run(m, first)
    decreases |first|
  {
    if |first| == 0 {
      assert first + second == second;
    } else {
      assert (first + second)[0] == first[0];
      assert (first + second)[1..] == first[1..] + second;
      if StepWith(m, first[0]).Ok? {
        RunAppend(StepWith(m, first[0]).value, first[1..], second);
      }
    }
  }

  /** A timer after t ticks: it counts down to zero and stays there. */
  function CountDown(v: u8, t: nat): u8 {
    if v >= t then v - t else 0
  }

  /** No input of the run presses a key in 0..15 (releases and unmapped keys may occur). */
  predicate NoKeyPressed(inputs: seq<Input>) {
    forall i :: 0 <= i < |inputs| ==> !(inputs[i].key.Pressed? && 0 <= inputs[i].key.key < KeyCount)
  }

  /** With every key up, an event that presses no key leaves the machine as it was. */
  lemma IgnoredEvent(m: State, e: KeyEvent)
    requires forall k :: 0 <= k < KeyCount ==> !m.keyboard[k]
    requires !(e.Pressed? && 0 <= e.key < KeyCount)
    ensures ApplyKey(m, e) == m
  {
    var r := ApplyKey(m, e);
    assert r.keyboard == m.keyboard by {
      forall k | 0 <= k < KeyCount
        ensures r.keyboard[k] == m.keyboard[k]
      {
      }
    }
  }

  /** While no key goes down, an FX0A keeps the machine parked on itself however many
      iterations run: PC, the registers and memory stay put, and the timers keep counting
      down. */
  lemma {:induction false} ParkedStaysParked(m: State, x: u4, inputs: seq<Input>)
    requires At(m, WaitKey(x)) && forall k :: 0 <= k < KeyCount ==> !m.keyboard[k]
    requires NoKeyPressed(inputs)
    ensures Run(m, inputs).Ok?
    ensures var r := Run(m, inputs).value;
      && r.pc == m.pc && r.regs == m.regs && r.ram == m.ram && r.keyboard == m.keyboard
      && r.delayTimer == CountDown(m.delayTimer, Ticks(inputs))
      && r.soundTimer == CountDown(m.soundTimer, Ticks(inputs))
      && (|inputs| > 0 ==> r.waitingForKey)
    decreases |inputs|
  {
    if |inputs| > 0 {
      var input := inputs[0];
      IgnoredEvent(m, input.key);
      WaitParks(m, x, input.timerDue, input.randomByte);
      var m1 := Step(m, input.timerDue, input.randomByte).value;
      assert StepWith(m, input) == Ok(m1);
      assert Fetch(m1) == Fetch(m);
      assert NoKeyPressed(inputs[1..]) by {
        forall i | 0 <= i < |inputs| - 1
          ensures !(inputs[1..][i].key.Pressed? && 0 <= inputs[1..][i].key.key < KeyCount)
        {
          assert inputs[1..][i] == inputs[i + 1];
        }
      }
      ParkedStaysParked(m1, x, inputs[1..]);
      assert Run(m, inputs) == Run(m1, inputs[1..]);
    }
  }

  /** A key pressed while an FX0A is parked wakes it in that same iteration: Vx receives
      the key, PC moves past the FX0A and the wait latch is cleared. */
  lemma PressWakesWaiter(m: State, x: u4, k: int, tick: bool, rnd: u8)
    requires At(m, WaitKey(x)) && forall j :: 0 <= j < KeyCount ==> !m.keyboard[j]
    requires 0 <= k < KeyCount
    ensures var r := StepWith(m, Input(Pressed(k), tick, rnd));
      && r.Ok? && r.value.regs[x] == k && r.value.pc == m.pc + 2 && !r.value.waitingForKey
      && forall i :: 0 <= i < RegCount && i != x ==> r.value.regs[i] == m.regs[i]
  {
    var m0 := ApplyKey(m, Pressed(k));
    assert Fetch(m0) == Fetch(m);
    WaitResumes(m0, x, k, tick, rnd);
  }
}

=== FILE: scenarios.dfy ===
/** Small programs loaded into a CPU and run step by step. */
module Scenarios {
  import opened Bits
  import opened Machine
  import opened Opcode
  import opened Cpu
  import Loader
  import Alu
  import opened StepProperties

  /** An iteration with no key event, no timer tick and random byte 0. */
  const Quiet := Input(NoKeyEvent, false, 0)

  /** The program occupies memory from ProgramStart on. */
  predicate Holds(ram: Ram, program: seq<u8>) {
    ProgramStart + |program| <= MemSize
    && forall i :: 0 <= i < |program| ==> ram[ProgramStart + i] == program[i]
  }

  /** A single quiet step, as a run of one input. */
  lemma RunOne(m: State, m1: State)
    requires Step(m, false, 0) == Ok(m1)
    ensures Run(m, [Quiet]) == Ok(m1)
  {
    assert StepWith(m, Quiet) == Ok(m1);
    assert Run(m1, []) == Ok(m1);
  }

  /** 6XNN with no tick. */
  lemma SetImmStep(m: State, x: u4, nn: u8)
    requires At(m, SetImm(x, nn))
    ensures Step(m, false, 0) == Ok(Advance(m, false).(regs := m.regs[x := nn]))
  {
    var a := Advance(m, false);
    StepRuns(m, SetImm(x, nn), false, 0);
    assert Step(m, false, 0) == Ok(a.(regs := m.regs[x := nn]));
  }

  /** The word at PC, read from two program bytes. */
  lemma FetchProgram(m: State, program: seq<u8>, i: nat)
    requires Holds(m.ram, program) && i + 1 < |program| && m.pc == ProgramStart + i
    ensures Fetch(m) == program[i] as int * 0x100 + program[i + 1] as int
  {
    assert m.ram[ProgramStart + i] == program[i];
    assert m.ram[ProgramStart + (i + 1)] == program[i + 1];
  }

  /** PC at program byte i, where the two bytes there decode to ins. */
  lemma ProgramAt(m: State, program: seq<u8>, i: nat, ins: Instr)
    requires Holds(m.ram, program) && i + 1 < |program| && m.pc == ProgramStart + i
    requires Decode(program[i] as int * 0x100 + program[i + 1] as int) == Ok(ins)
    ensures At(m, ins)
  {
    FetchProgram(m, program, i);
  }

  const AddRom: seq<u8> := [0x60, 0x0A, 0x61, 0x0B, 0x80, 0x14]

  /** Three quiet steps in a row. */
  lemma {:induction false} RunThree(m0: State, m1: State, m2: State, m3: State)
    requires Step(m0, false, 0) == Ok(m1) && Step(m1, false, 0) == Ok(m2) && Step(m2, false, 0) == Ok(m3)
    ensures Run(m0, [Quiet, Quiet, Quiet]) == Ok(m3)
  {
    RunOne(m0, m1);
    RunOne(m1, m2);
    RunOne(m2, m3);
    assert StepWith(m0, Quiet) == Ok(m1) && StepWith(m1, Quiet) == Ok(m2) && StepWith(m2, Quiet) == Ok(m3);
    assert [Quiet, Quiet, Quiet][1..] == [Quiet, Quiet] && [Quiet, Quiet][1..] == [Quiet];
    assert Run(m3, []) == Ok(m3);
  }

  lemma AddRomDecodes()
    ensures Decode(0x600A) == Ok(SetImm(0, 0x0A))
    ensures Decode(0x610B) == Ok(SetImm(1, 0x0B))
    ensures Decode(0x8014) == Ok(Arith(AluOp.Add, 0, 1))
  {
  }

  /** The addition at the end of the program: 10 + 11 with no carry. */
  lemma AddRomSum(regs: Registers)
    requires regs[0] == 0x0A && regs[1] == 0x0B
    ensures Alu.Compute(AluOp.Add, regs, 0, 1)[0] == 21
    ensures Alu.Compute(AluOp.Add, regs, 0, 1)[FlagReg] == 0
  {
    Alu.AddCarries(regs, 0, 1);
  }

  lemma AddRomSteps(m0: State)
    requires Holds(m0.ram, AddRom) && m0.pc == ProgramStart
    ensures var r := Run(m0, [Quiet, Quiet, Quiet]);
      r.Ok? && r.value.regs[0] == 21 && r.value.regs[FlagReg] == 0 && r.value.pc == 518
  {
    AddRomFirst(m0);
    var m1 := Step(m0, false, 0).value;
    AddRomSecond(m1);
    var m2 := Step(m1, false, 0).value;
    AddRomThird(m2);
    RunThree(m0, m1, m2, Step(m2, false, 0).value);
  }

  /** 600A at the start of the image. */
  lemma AddRomFirst(m: State)
    requires Holds(m.ram, AddRom) && m.pc == ProgramStart
    ensures var r := Step(m, false, 0);
      r.Ok? && Holds(r.value.ram, AddRom) && r.value.pc == ProgramStart + 2 && r.value.regs[0] == 0x0A
  {
    AddRomDecodes();
    ProgramAt(m, AddRom, 0, SetImm(0, 0x0A));
    SetImmStep(m, 0, 0x0A);
  }

  /** 610B two bytes in. */
  lemma AddRomSecond(m: State)
    requires Holds(m.ram, AddRom) && m.pc == ProgramStart + 2 && m.regs[0] == 0x0A
    ensures var r := Step(m, false, 0);
      r.Ok? && Holds(r.value.ram, AddRom) && r.value.pc == ProgramStart + 4
      && r.value.regs[0] == 0x0A && r.value.regs[1] == 0x0B
  {
    AddRomDecodes();
    ProgramAt(m, AddRom, 2, SetImm(1, 0x0B));
    SetImmStep(m, 1, 0x0B);
  }

  /** 8014 four bytes in, with V0 = 10 and V1 = 11. */
  lemma AddRomThird(m: State)
    requires Holds(m.ram, AddRom) && m.pc == ProgramStart + 4 && m.regs[0] == 0x0A && m.regs[1] == 0x0B
    ensures var r := Step(m, false, 0);
      r.Ok? && r.value.regs[0] == 21 && r.value.regs[FlagReg] == 0 && r.value.pc == 518
  {
    AddRomDecodes();
    ProgramAt(m, AddRom, 4, Arith(AluOp.Add, 0, 1));
    ArithSteps(m, AluOp.Add, 0, 1, false, 0);
    AddRomSum(m.regs);
  }

  /** V0 := 0x0A; V1 := 0x0B; V0 += V1, loaded into any machine: after three steps V0 holds
      21, VF holds 0 (no carry) and PC is past the three instructions. */
  lemma AddProgram(s: State)
    ensures Loader.LoadProgram(s, AddRom).Ok?
    ensures var r := Run(Loader.LoadProgram(s, AddRom).value, [Quiet, Quiet, Quiet]);
      r.Ok? && r.value.regs[0] == 21 && r.value.regs[FlagReg] == 0 && r.value.pc == 518
  {
    AddRomSteps(Loader.LoadProgram(s, AddRom).value);
  }

  /** Three decimal digits below ten that spell 234 are 2, 3 and 4. */
  lemma Digits234(a: u8, b: u8, c: u8)
    requires a < 10 && b < 10 && c < 10 && 100 * a as int + 10 * b as int + c as int == 234
    ensures a == 2 && b == 3 && c == 4
  {
  }

  const BcdRom: seq<u8> := [0x60, 0xEA, 0xA3, 0x00, 0xF0, 0x33]

  lemma BcdRomDecodes()
    ensures Decode(0x60EA) == Ok(SetImm(0, 0xEA))
    ensures Decode(0xA300) == Ok(SetIndex(0x300))
    ensures Decode(0xF033) == Ok(StoreBcd(0))
  {
  }

  lemma BcdRomSteps(m0: State)
    requires Holds(m0.ram, BcdRom) && m0.pc == ProgramStart
    ensures var r := Run(m0, [Quiet, Quiet, Quiet]);
      r.Ok? && r.value.ram[0x300] == 2 && r.value.ram[0x301] == 3 && r.value.ram[0x302] == 4
  {
    BcdRomFirst(m0);
    var m1 := Step(m0, false, 0).value;
    BcdRomSecond(m1);
    var m2 := Step(m1, false, 0).value;
    BcdRomThird(m2);
    RunThree(m0, m1, m2, Step(m2, false, 0).value);
  }

  /** 60EA at the start of the image. */
  lemma BcdRomFirst(m: State)
    requires Holds(m.ram, BcdRom) && m.pc == ProgramStart
    ensures var r := Step(m, false, 0);
      r.Ok? && Holds(r.value.ram, BcdRom) && r.value.pc == ProgramStart + 2 && r.value.regs[0] == 0xEA
  {
    BcdRomDecodes();
    ProgramAt(m, BcdRom, 0, SetImm(0, 0xEA));
    SetImmStep(m, 0, 0xEA);
  }

  /** A300 two bytes in. */
  lemma BcdRomSecond(m: State)
    requires Holds(m.ram, BcdRom) && m.pc == ProgramStart + 2 && m.regs[0] == 0xEA
    ensures var r := Step(m, false, 0);
      r.Ok? && Holds(r.value.ram, BcdRom) && r.value.pc == ProgramStart + 4
      && r.value.regs[0] == 0xEA && r.value.index == 0x300
  {
    BcdRomDecodes();
    ProgramAt(m, BcdRom, 2, SetIndex(0x300));
    SetIndexSteps(m, 0x300, false, 0);
  }

  /** F033 four bytes in, with V0 = 234 and I = 0x300. */
  lemma BcdRomThird(m: State)
    requires Holds(m.ram, BcdRom) && m.pc == ProgramStart + 4 && m.regs[0] == 0xEA && m.index == 0x300
    ensures var r := Step(m, false, 0);
      r.Ok? && r.value.ram[0x300] == 2 && r.value.ram[0x301] == 3 && r.value.ram[0x302] == 4
  {
    BcdRomDecodes();
    ProgramAt(m, BcdRom, 4, StoreBcd(0));
    StoreBcdDigits(m, 0, false, 0);
    var r := Step(m, false, 0).value;
    Digits234(r.ram[0x300], r.ram[0x301], r.ram[0x302]);
  }

  /** V0 := 234; I := 0x300; FX33 with X = 0, loaded into any machine: after three steps
      memory holds the digits 2, 3, 4 at 0x300, 0x301, 0x302. */
  lemma BcdProgram(s: State)
    ensures Loader.LoadProgram(s, BcdRom).Ok?
    ensures var r := Run(Loader.LoadProgram(s, BcdRom).value, [Quiet, Quiet, Quiet]);
      r.Ok? && r.value.ram[0x300] == 2 && r.value.ram[0x301] == 3 && r.value.ram[0x302] == 4
  {
    BcdRomSteps(Loader.LoadProgram(s, BcdRom).value);
  }

  /** A program that starts with 00EE has nothing to return to: the first step throws. */
  lemma ReturnProgram(s: State)
    requires |s.stack| == 0
    ensures Loader.LoadProgram(s, [0x00, 0xEE]).Ok?
    ensures Run(Loader.LoadProgram(s, [0x00, 0xEE]).value, [Quiet]) == Err(StackUnderflow)
  {
    var m0 := Loader.LoadProgram(s, [0x00, 0xEE]).value;
    FetchProgram(m0, [0x00, 0xEE], 0);
    assert Decode(0x00EE) == Ok(Return);
    ReturnOnEmptyStack(m0, false, 0);
    assert StepWith(m0, Quiet) == Err(StackUnderflow);
  }
}

=== FILE: sprite.dfy ===
/** DXYN: XOR-drawing an N-row sprite onto the 64x32 frame with toroidal wrap-around and
    collision detection. */
module Sprite {
  import opened Bits
  import opened Machine

  /** The frame after a draw and the value the draw leaves in VF. */
  datatype Drawn = Drawn(frame: Frame, flag: u8)

  /** Pixel p of a sprite, taken row by row: row p / 8, column p % 8, most significant bit
      first, as `(spriteByte >> (7 - col)) & 1`. */
  function PixelAt(sprite: seq<u8>, p: nat): (px: u8)
    requires p < 8 * |sprite|
    ensures px == 0 || px == 1
    ensures px == 1 <==> Bit(sprite[p / 8], 7 - p % 8)
  {
    var b := sprite[p / 8];
    var shifted := Shr(b, 7 - p % 8);
    BitShr(b, 7 - p % 8);
    LowBit(shifted);
    And8(shifted, 1)
  }

  /** The frame index that pixel p lands on when the sprite's origin is (x, y): column and
      row each wrap around the screen. */
  function CellOf(x: nat, y: nat, p: nat): (k: nat)
    ensures k < FrameSize
  {
    (x + p % 8) % ScreenWidth + ((y + p / 8) % ScreenHeight) * ScreenWidth
  }

  /** The draw loop after its first n pixels, starting from VF = 0. */
  function DrawPrefix(d: Frame, sprite: seq<u8>, x: nat, y: nat, n: nat): Drawn
    requires n <= 8 * |sprite|
  {
    if n == 0 then Drawn(d, 0)
    else
      var prev := DrawPrefix(d, sprite, x, y, n - 1);
      var k := CellOf(x, y, n - 1);
      var px := PixelAt(sprite, n - 1);
      var flag := if px == 1 && prev.frame[k] == 1 then 1 else prev.flag;
      Drawn(prev.frame[k := Xor8(prev.frame[k], px)], flag)
  }

  /** Drawing a whole sprite at origin (x, y). */
  function Draw(d: Frame, sprite: seq<u8>, x: nat, y: nat): Drawn {
    DrawPrefix(d, sprite, x, y, 8 * |sprite|)
  }

  /** Some lit pixel among the first n lands on cell k. */
  predicate Lit(sprite: seq<u8>, x: nat, y: nat, n: nat, k: nat)
    requires n <= 8 * |sprite|
  {
    exists p :: 0 <= p < n && CellOf(x, y, p) == k && PixelAt(sprite, p) == 1
  }

  /** Some lit pixel among the first n lands on a cell that is 1 in d. */
  predicate Collides(d: Frame, sprite: seq<u8>, x: nat, y: nat, n: nat)
    requires n <= 8 * |sprite|
  {
    exists p :: 0 <= p < n && PixelAt(sprite, p) == 1 && d[CellOf(x, y, p)] == 1
  }

  /** Within a sprite of at most ScreenHeight rows, distinct pixels land on distinct cells. */
  lemma CellInjective(x: nat, y: nat, p: nat, q: nat)
    requires p < q < 8 * ScreenHeight
    ensures CellOf(x, y, p) != CellOf(x, y, q)
  {
    CellParts(x, y, p);
    CellParts(x, y, q);
    if p % 8 < q % 8 {
      ShiftedResiduesDiffer(x, p % 8, q % 8, ScreenWidth);
    } else if q % 8 < p % 8 {
      ShiftedResiduesDiffer(x, q % 8, p % 8, ScreenWidth);
    } else {
      assert p / 8 < q / 8;
      ShiftedResiduesDiffer(y, p / 8, q / 8, ScreenHeight);
    }
  }

  /** A cell index splits back into its column and its row. */
  lemma CellParts(x: nat, y: nat, p: nat)
    ensures CellOf(x, y, p) % ScreenWidth == (x + p % 8) % ScreenWidth
    ensures CellOf(x, y, p) / ScreenWidth == (y + p / 8) % ScreenHeight
  {
  }

  /** Shifting two distinct offsets below the screen dimension by the same origin keeps them
      distinct after wrap-around. */
  lemma ShiftedResiduesDiffer(x: nat, a: nat, b: nat, m: nat)
    requires m == ScreenWidth || m == ScreenHeight
    requires a < b < m
    ensures (x + a) % m != (x + b) % m
  {
    if m == ScreenWidth {
      assert (x + a) % 64 != (x + b) % 64;
    } else {
      assert (x + a) % 32 != (x + b) % 32;
    }
  }

  /** No earlier pixel lands on the cell of pixel q. */
  lemma FirstVisit(sprite: seq<u8>, x: nat, y: nat, q: nat)
    requires q < 8 * |sprite| && |sprite| <= ScreenHeight
    ensures !Lit(sprite, x, y, q, CellOf(x, y, q))
    ensures !exists p :: 0 <= p < q && CellOf(x, y, p) == CellOf(x, y, q)
  {
    forall p | 0 <= p < q
      ensures CellOf(x, y, p) != CellOf(x, y, q)
    {
      CellInjective(x, y, p, q);
    }
  }

  /** Extending the prefix by pixel q adds exactly pixel q's cell when it is lit. */
  lemma LitStep(sprite: seq<u8>, x: nat, y: nat, q: nat, k: nat)
    requires q < 8 * |sprite|
    ensures Lit(sprite, x, y, q + 1, k) <==>
      Lit(sprite, x, y, q, k) || (k == CellOf(x, y, q) && PixelAt(sprite, q) == 1)
  {
    if Lit(sprite, x, y, q + 1, k) && !(k == CellOf(x, y, q) && PixelAt(sprite, q) == 1) {
      var p :| 0 <= p < q + 1 && CellOf(x, y, p) == k && PixelAt(sprite, p) == 1;
      assert p < q;
    }
  }

  /** Extending the prefix by pixel q adds a collision exactly when q is lit over a set cell. */
  lemma CollidesStep(d: Frame, sprite: seq<u8>, x: nat, y: nat, q: nat)
    requires q < 8 * |sprite|
    ensures Collides(d, sprite, x, y, q + 1) <==>
      Collides(d, sprite, x, y, q) || (PixelAt(sprite, q) == 1 && d[CellOf(x, y, q)] == 1)
  {
    if Collides(d, sprite, x, y, q + 1) {
      var p :| 0 <= p < q + 1 && PixelAt(sprite, p) == 1 && d[CellOf(x, y, p)] == 1;
      if p < q {
        assert Collides(d, sprite, x, y, q);
      }
    }
    if Collides(d, sprite, x, y, q) {
      var p :| 0 <= p < q && PixelAt(sprite, p) == 1 && d[CellOf(x, y, p)] == 1;
      assert 0 <= p < q + 1;
    }
  }

  /** The draw loop in closed form: a cell is toggled exactly when a lit pixel lands on it,
      and VF is 1 exactly when a lit pixel lands on a cell that was 1 before the draw. */
  lemma {:induction false} DrawPrefixClosedForm(d: Frame, sprite: seq<u8>, x: nat, y: nat, n: nat)
    requires n <= 8 * |sprite| && |sprite| <= ScreenHeight
    ensures forall k :: 0 <= k < FrameSize ==>
      DrawPrefix(d, sprite, x, y, n).frame[k] == if Lit(sprite, x, y, n, k) then Xor8(d[k], 1) else d[k]
    ensures DrawPrefix(d, sprite, x, y, n).flag == if Collides(d, sprite, x, y, n) then 1 else 0
  {
    if n > 0 {
      var q := n - 1;
      DrawPrefixClosedForm(d, sprite, x, y, q);
      var prev := DrawPrefix(d, sprite, x, y, q);
      var r := DrawPrefix(d, sprite, x, y, n);
      var kq := CellOf(x, y, q);
      var px := PixelAt(sprite, q);
      FirstVisit(sprite, x, y, q);
      assert prev.frame[kq] == d[kq];
      ZeroMask(d[kq]);
      forall k | 0 <= k < FrameSize
        ensures r.frame[k] == if Lit(sprite, x, y, n, k) then Xor8(d[k], 1) else d[k]
      {
        LitStep(sprite, x, y, q, k);
      }
      CollidesStep(d, sprite, x, y, q);
    }
  }

  /** Drawing the same sprite twice at the same origin restores the frame. */
  lemma DrawTwiceRestores(d: Frame, sprite: seq<u8>, x: nat, y: nat)
    requires |sprite| <= ScreenHeight
    ensures Draw(Draw(d, sprite, x, y).frame, sprite, x, y).frame == d
  {
    var n := 8 * |sprite|;
    var d1 := Draw(d, sprite, x, y).frame;
    var d2 := Draw(d1, sprite, x, y).frame;
    DrawPrefixClosedForm(d, sprite, x, y, n);
    DrawPrefixClosedForm(d1, sprite, x, y, n);
    forall k | 0 <= k < FrameSize
      ensures d2[k] == d[k]
    {
      if Lit(sprite, x, y, n, k) {
        FlipLowBitTwice(d[k]);
      }
    }
  }

  /** A frame of zeros and ones stays so. */
  lemma DrawKeepsBinary(d: Frame, sprite: seq<u8>, x: nat, y: nat)
    requires |sprite| <= ScreenHeight && FrameIsBinary(d)
    ensures FrameIsBinary(Draw(d, sprite, x, y).frame)
    ensures Draw(d, sprite, x, y).flag == 0 || Draw(d, sprite, x, y).flag == 1
  {
    var n := 8 * |sprite|;
    var d1 := Draw(d, sprite, x, y).frame;
    DrawPrefixClosedForm(d, sprite, x, y, n);
    forall k | 0 <= k < FrameSize
      ensures d1[k] == 0 || d1[k] == 1
    {
      FlipLowBit(d[k]);
    }
  }

  /** On a frame of zeros and ones, VF is 1 exactly when the draw turns some set pixel off. */
  lemma CollisionMeansPixelCleared(d: Frame, sprite: seq<u8>, x: nat, y: nat)
    requires |sprite| <= ScreenHeight && FrameIsBinary(d)
    ensures Draw(d, sprite, x, y).flag == 1 <==>
      exists k :: 0 <= k < FrameSize && d[k] == 1 && Draw(d, sprite, x, y).frame[k] == 0
  {
    var n := 8 * |sprite|;
    var r := Draw(d, sprite, x, y);
    DrawPrefixClosedForm(d, sprite, x, y, n);
    FlipLowBit(1);
    if r.flag == 1 {
      var p :| 0 <= p < n && PixelAt(sprite, p) == 1 && d[CellOf(x, y, p)] == 1;
      var k := CellOf(x, y, p);
      assert Lit(sprite, x, y, n, k);
      assert r.frame[k] == 0;
    }
    if exists k :: 0 <= k < FrameSize && d[k] == 1 && r.frame[k] == 0 {
      var k :| 0 <= k < FrameSize && d[k] == 1 && r.frame[k] == 0;
      assert Lit(sprite, x, y, n, k);
      var p :| 0 <= p < n && CellOf(x, y, p) == k && PixelAt(sprite, p) == 1;
      assert Collides(d, sprite, x, y, n);
    }
  }
}
